=== FILE: README.md ===
# Nine-slice sprite geometry (cocos2d `ui::Scale9Sprite`)

A Dafny model of the core of `Scale9Sprite`, the UI node that draws a
texture region as a 3×3 grid: the four corners keep their size, the edges
stretch along one axis and the centre stretches along both. It covers:

- how the sprite holds its configuration: the frame it slices, the cap
  insets as a rectangle and as four scalar edges, the original, preferred
  and content sizes, and the dirty flag that schedules a rebuild;
- how `init` resolves explicit against parsed .9.png insets, and how
  `updateWithSprite` defaults a zero rectangle and a zero original size;
- the setters that reapply insets (`setCapInsets`, `updateCapInset`,
  `setInsetLeft/Top/Right/Bottom`, `setSpriteFrame`,
  `configureSimpleModeRendering`) and the mode switches;
- the rebuild `createSlicedSprites`, run from `visit` while the sprite is
  dirty. It converts to pixels, derives the trim offsets, strips the .9.png
  border and defaults the insets to thirds. Then `calculateUV` gives the
  texture boundaries, `calculateVertices` the position boundaries (SIMPLE
  scaling, SLICE stretch and shrink), and `calculateTriangles` the vertex
  grid and index buffer;
- the flip-aware scale accessors, which store a negated node scale while
  flipped.

Modules, one per file:

| file | module | what |
|---|---|---|
| geometry.dfy | Geometry | vectors, sizes, rectangles, trim offsets, rendering type, points-to-pixels |
| cap_insets.dfy | CapInsets | trim offsets, default thirds, init-time resolution, rectangle ↔ scalar insets |
| texture_coords.dfy | TextureCoords | `calculateUV` |
| positions.dfy | Positions | `calculateVertices` |
| mesh.dfy | Mesh | `calculateTriangles`: a functional layout, plus methods that follow the source's loops, proved to build it |
| slice_pipeline.dfy | SlicePipeline | the geometry half of `createSlicedSprites` |
| scale9_sprite.dfy | Scale9 | the sprite's state, the setters, the rebuild, `visit`'s dirty step, the scale accessors |

Modelling choices:

- Coordinates are mathematical reals. The source's single-precision
  algebra is followed, but not its rounding. The constant 1.3f is 1.3.
- The content scale factor is a positive real parameter.
- A division is a precondition only where the source actually uses the
  quotient. The SLICE stretch factor is needed only when a trim offset
  eats into a corner. The shrink factor is needed only when the centre has
  no room.
- Pointers become `Option`, and the inner sprite becomes an `Image` value.
  Texture lookups (pixel size, content size, parsed 9-patch insets,
  premultiplied alpha) are
  fields of a `Texture` value.
- The mesh is a value (`Triangles`) stored on the sprite. `None` means it
  has been released.

Where the code behaves in ways a caller may not expect, the model follows
the code, with one exception: the preferred-size slip in `updateWithSprite`
listed under "## Findings". `Scale9.UpdateWithSprite` and every setter built
on it use the corrected reload. The code as written is kept as
`Scale9.UpdateWithSpriteAsWritten`, and
`Scale9.CorrectedReloadDepartsOnlyThere` pins down exactly where the two
differ. Otherwise:

- `init` with no sprite, or with a sprite without a texture, returns
  true and changes nothing.
- `init` marks the source as a .9.png whenever the parsed insets are
  non-zero, even when explicit insets take precedence.
- The constructor starts with the dirty flag clear. The first rebuild is
  scheduled by `updateWithSprite`.
- A failed `updateWithSprite` (no frame, or no sprite at all) has already
  released the mesh: `cleanupSlicedSprites` runs first (line 391), before
  any check.

## Model

| member | source | states |
|---|---|---|
| CapInsets.TrimOffsets | cocos/ui/UIScale9Sprite.cpp:502-506 | the left and right trims add up to the width the frame lost, top and bottom to the height; left minus right is twice the x offset and bottom minus top twice the y offset; an untrimmed, centred frame has no trim |
| CapInsets.EffectiveCapInsets | cocos/ui/UIScale9Sprite.cpp:515-519 | non-zero insets are kept; zero insets become equal thirds: each corner as wide and as high as the centre and as the opposite corner |
| CapInsets.DefaultInsetsAreThirds | cocos/ui/UIScale9Sprite.cpp:515-519 | the default rectangle has all four scalar insets and the centre equal to a third of the size |
| CapInsets.ResolveCapInsets | cocos/ui/UIScale9Sprite.cpp:169-183 | the source is a .9.png iff it already was or the parsed insets are non-zero; explicit non-zero insets win; zero explicit insets give way to non-zero parsed ones; with no or zero parsed insets the explicit ones are used |
| CapInsets.InsetsToRect | cocos/ui/UIScale9Sprite.cpp:595-603 | the rectangle's origin is (left, top), and left + centre + right spans the original width, top + centre + bottom the height |
| CapInsets.RectToInsets | cocos/ui/UIScale9Sprite.cpp:636-639 | left and top are the origin; right and bottom are what the rectangle leaves of the original size |
| CapInsets.RectInsetsRoundTrip | cocos/ui/UIScale9Sprite.cpp:595-603 | rebuilding the rectangle from the scalar insets gives back the rectangle they were read from |
| CapInsets.InsetsRectRoundTrip | cocos/ui/UIScale9Sprite.cpp:636-639 | reading scalar insets back from the rectangle built from them gives them back |
| TextureCoords.RawSpans | cocos/ui/UIScale9Sprite.cpp:1054-1063 | leading span is the inset less the leading trim, centre as given, and the three spans add to the original extent less both trims |
| TextureCoords.Clamp | cocos/ui/UIScale9Sprite.cpp:1065-1085 | both edges end non-negative, the total is unchanged, a non-negative edge is kept and a negative one becomes zero |
| TextureCoords.RotationSwapsAxes | cocos/ui/UIScale9Sprite.cpp:1044-1063 | a rotated frame's columns are the unrotated rows reversed, its rows the unrotated columns |
| TextureCoords.ColumnSpans | cocos/ui/UIScale9Sprite.cpp:1044-1085 | the clamped left and right columns are never negative; the three add up to the original width less the left and right trims (the height less top and bottom for a rotated frame); a leading inset that covers its trim gives exactly inset − trim (for a rotated frame the top inset becomes the right-hand column) |
| TextureCoords.RowSpans | cocos/ui/UIScale9Sprite.cpp:1044-1085 | the clamped top and bottom rows are never negative; the three add up to the original height less the top and bottom trims (the width less left and right for a rotated frame); a leading inset that covers its trim gives exactly inset − trim |
| TextureCoords.NinePatchSamplesInsideFrame | cocos/ui/UIScale9Sprite.cpp:1087-1097 | a .9.png frame is sampled strictly inside its rectangle, past the whole leading border pixel, at the frame size less two on each axis |
| TextureCoords.CalculateUV | cocos/ui/UIScale9Sprite.cpp:1032-1139 | 2 or 4 entries; the first and last pair the sampled rectangle's corners over the atlas size, with v reversed for an upright frame; in SLICE the inner u and v boundaries sit after the clamped leading span and after the centre |
| TextureCoords.SpansTileSampledRect | cocos/ui/UIScale9Sprite.cpp:1044-1097 | with trim offsets, the three columns add up to the sampled rectangle's u extent and the three rows to its v extent |
| TextureCoords.UVOrdered | cocos/ui/UIScale9Sprite.cpp:1099-1136 | when both clamped centres are non-negative, u never decreases across the entries and v runs monotonically (down for an upright frame, up for a rotated one) |
| TextureCoords.UVOrderedWithinFrame | cocos/ui/UIScale9Sprite.cpp:1044-1136 | for an untrimmed frame whose cap insets lie within the original size, u never decreases across the entries and v runs monotonically (down upright, up rotated) |
| Positions.TrimAxis | cocos/ui/UIScale9Sprite.cpp:1192-1224 | trimmed corners are never negative; a corner that covers its trim starts the axis at the trim and loses exactly the trim; with both trims covered, the spans fill the preferred length less the trailing trim |
| Positions.TrimAxisSamplesStretch | cocos/ui/UIScale9Sprite.cpp:1192-1224 | even when a trim eats into its corner, the trimmed axis starts and ends exactly where the leading trim and the far end less the trailing trim land in the untrimmed stretch (`Place`: corners copied, centre scaled) |
| Positions.AxisBoundaries | cocos/ui/UIScale9Sprite.cpp:1226-1256 | four boundaries from the start; with room for the centre the spans are laid end to end; without, the centre collapses, the axis spans exactly the preferred length and the corners keep their proportion |
| Positions.CalculateVertices | cocos/ui/UIScale9Sprite.cpp:1153-1261 | 2 or 4 boundaries; an untrimmed SIMPLE quad runs from the origin to the preferred size |
| Positions.SimpleQuadScalesTrimmedFrame | cocos/ui/UIScale9Sprite.cpp:1164-1171 | the SIMPLE quad's width and height are the preferred size scaled by the fraction of the original the trimmed frame covers |
| Positions.SimpleQuadAtNaturalSize | cocos/ui/UIScale9Sprite.cpp:1164-1171 | at the original size the SIMPLE quad is unscaled: corners at the left/bottom trims and at the size less the right/top trims |
| Positions.AxisOrdered | cocos/ui/UIScale9Sprite.cpp:1192-1256 | for a non-negative preferred length the four boundaries of an axis are non-decreasing |
| Positions.SliceVerticesOrdered | cocos/ui/UIScale9Sprite.cpp:1172-1259 | for a non-negative preferred size the SLICE x and y boundaries are non-decreasing |
| Positions.AxisStretch | cocos/ui/UIScale9Sprite.cpp:1192-1234 | stretch case: the axis starts at the leading trim, the first corner keeps its size and the axis ends at the preferred length less the trailing trim |
| Positions.SliceStretch | cocos/ui/UIScale9Sprite.cpp:1172-1259 | SLICE stretch case along both axes: all eight boundaries in closed form: the outer ones at the trims, the inner ones at the leading inset and at the preferred length less the trailing inset (in points), so the corners keep their size and the centre takes the rest; they are ordered, and an untrimmed grid spans exactly the preferred size |
| Positions.SliceShrink | cocos/ui/UIScale9Sprite.cpp:1235-1256 | SLICE shrink case: an axis with no room for its centre has coinciding centre boundaries and spans exactly the preferred length |
| Positions.StretchExample | cocos/ui/UIScale9Sprite.cpp:1228-1249 | a 100×100 source with 25-pixel insets drawn at 200×200 has boundaries 0, 25, 175, 200 |
| Positions.ShrinkExample | cocos/ui/UIScale9Sprite.cpp:1235-1256 | the same source drawn at 40×40 has boundaries 0, 20, 20, 40 |
| Mesh.VertexColor | cocos/ui/UIScale9Sprite.cpp:1279-1289 | alpha is the opacity; colour channels are copied, or with premultiplied alpha scaled by opacity / 255 and truncated, and stay bytes |
| Mesh.Premultiplied | cocos/ui/UIScale9Sprite.cpp:1286-1288 | a premultiplied channel is the channel times opacity / 255 rounded down: the largest byte whose 255-multiple does not exceed channel × opacity |
| Mesh.ScaledChannel | cocos/ui/UIScale9Sprite.cpp:1283-1289 | a byte channel scaled by a byte opacity over 255 still fits in a byte |
| Mesh.VertexGrid | cocos/ui/UIScale9Sprite.cpp:1291-1324 | a g×g grid has g² vertices |
| Mesh.VertexGridLayout | cocos/ui/UIScale9Sprite.cpp:1291-1324 | vertex i + g·j sits at (x_i, y_j) and samples (u_i, v_j), or (u_j, v_i) for a rotated frame; all vertices share one colour |
| Mesh.SliceIndexBuffer | cocos/ui/UIScale9Sprite.cpp:1326-1346 | the SLICE index buffer has 54 entries |
| Mesh.SliceIndexLayout | cocos/ui/UIScale9Sprite.cpp:1326-1346 | cell (i, j) holds the quad pattern shifted by its corner i + 4j, and every index names one of the 16 vertices |
| Mesh.SliceCellTriangles | cocos/ui/UIScale9Sprite.cpp:1276 | each SLICE cell is drawn as two triangles over exactly its own four corners |
| Mesh.SimpleQuadCorners | cocos/ui/UIScale9Sprite.cpp:1277 | the SIMPLE quad uses all four vertices of the 2×2 grid and no other |
| Mesh.CalculateTriangles | cocos/ui/UIScale9Sprite.cpp:1263-1360 | g² vertices and 6·(g-1)² indices, every index naming a vertex, every vertex carrying the opacity |
| Mesh.SimpleTriangles | cocos/ui/UIScale9Sprite.cpp:1291-1351 | a SIMPLE mesh's first and last vertices are the first and last boundaries, drawn by the SIMPLE quad |
| Mesh.WriteSliceIndices | cocos/ui/UIScale9Sprite.cpp:1326-1346 | the source's copy-then-shift index loops produce exactly the SLICE index buffer |
| Mesh.AssembleVertices | cocos/ui/UIScale9Sprite.cpp:1291-1324 | the source's vertex loops produce exactly the vertex grid |
| SlicePipeline.BuildMesh | cocos/ui/UIScale9Sprite.cpp:496-523 | the rebuilt mesh has the grid's vertex and index counts, every index in range and every alpha equal to the opacity |
| SlicePipeline.OffsetsAreTrimConsistent | cocos/ui/UIScale9Sprite.cpp:496-512 | the derived trims plus the sampled rectangle make up the whole original, border included |
| SlicePipeline.MeshUVOrdered | cocos/ui/UIScale9Sprite.cpp:496-521 | a rebuild's texture boundaries are monotone whenever the clamped centres are non-negative |
| SlicePipeline.SimpleAtOriginalSizeIsFrame | cocos/ui/UIScale9Sprite.cpp:496-522 | SIMPLE at the original size draws a quad exactly as large as the frame rectangle |
| SlicePipeline.WholeAtlasSimpleQuad | cocos/ui/UIScale9Sprite.cpp:496-523 | an untrimmed frame filling its atlas, drawn SIMPLE, is one quad from the origin to the preferred size sampling the whole texture with v flipped |
| SlicePipeline.TrimsInPoints | cocos/ui/UIScale9Sprite.cpp:496-512 | the pixel trims derived for the rebuild, brought back to points, add up to the width and height the frame lost |
| Scale9.SetContentSize | cocos/ui/UIScale9Sprite.cpp:531-541 | an unchanged size is a no-op; a new size also becomes the preferred size and sets the dirty flag, and nothing else changes |
| Scale9.AdoptImage | cocos/ui/UIScale9Sprite.cpp:395-420 | the inner sprite exists iff a sprite is given; a new one is adopted as given; an existing one takes the given frame and texture and keeps its own colour and opacity; it keeps its premultiply flag when the texture is unchanged and re-derives it from a different texture (set exactly when that texture has premultiplied alpha, as updateBlendFunc does at 353-366) |
| Scale9.ReloadShape | cocos/ui/UIScale9Sprite.cpp:383-468 | a successful reload replaces only the frame, insets rectangle and sizes, and sets the dirty flag when nine-slicing is on or the displayed size changed |
| Scale9.UpdateWithSprite | cocos/ui/UIScale9Sprite.cpp:383-468 | the mesh is released; it succeeds iff a sprite with a frame is given; a failure changes nothing else; reloading the current inner sprite keeps it; on success preferred and content size agree |
| Scale9.UpdateWithSpriteStores | cocos/ui/UIScale9Sprite.cpp:422-468 | on success: a zero rectangle becomes the texture's extent, a zero original size the rectangle's size, the insets are stored, the content size is the original less any .9.png border, and a rebuild is scheduled when nine-slicing is on |
| Scale9.UpdateWithSpriteAsWritten | cocos/ui/UIScale9Sprite.cpp:422-466 | as written: when the content size does not change, the preferred size stays the unadjusted original size |
| Scale9.CorrectedReloadDepartsOnlyThere | cocos/ui/UIScale9Sprite.cpp:422-466 | the corrected reload and the code as written agree on success and on every field but the preferred size; they differ there exactly for a successful reload of a .9.png source whose content size already is the border-less size, where the code keeps the full original size |
| Scale9.SelfReload | cocos/ui/UIScale9Sprite.cpp:627-641 | reloading from the sprite's own inner sprite keeps the image, mode switches, flips and scale, and can be repeated |
| Scale9.SetCapInsets | cocos/ui/UIScale9Sprite.cpp:627-641 | the mesh is released, the display setup is kept, and the scalar insets are the ones the new rectangle implies |
| Scale9.SetCapInsetsStores | cocos/ui/UIScale9Sprite.cpp:627-641 | with a usable inner sprite the rectangle is stored, the scalar insets rebuild exactly that rectangle, the sizes agree and a rebuild is scheduled |
| Scale9.UpdateCapInset | cocos/ui/UIScale9Sprite.cpp:595-603 | reapplying the scalar insets leaves them unchanged and stores the rectangle they describe |
| Scale9.SetInsetLeft | cocos/ui/UIScale9Sprite.cpp:643-647 | the left inset takes the new value and the other three come back unchanged |
| Scale9.SetInsetTop | cocos/ui/UIScale9Sprite.cpp:649-653 | the top inset takes the new value and the other three come back unchanged |
| Scale9.SetInsetRight | cocos/ui/UIScale9Sprite.cpp:655-659 | the right inset takes the new value and the other three come back unchanged |
| Scale9.SetInsetBottom | cocos/ui/UIScale9Sprite.cpp:661-665 | the bottom inset takes the new value and the other three come back unchanged |
| Scale9.ConfigureSimpleModeRendering | cocos/ui/UIScale9Sprite.cpp:471-477 | all four insets become zero and the cap rectangle is the whole original frame |
| Scale9.SetRenderingType | cocos/ui/UIScale9Sprite.cpp:1362-1370 | setting the current mode is a no-op; a new mode sets the dirty flag and changes nothing else |
| Scale9.SetScale9Enabled | cocos/ui/UIScale9Sprite.cpp:802-839 | no change is a no-op; disabling releases the mesh only; enabling with a framed inner sprite reloads it with a zero offset: a zero frame rectangle becomes the texture extent, a zero original size the rectangle's size, the content and preferred size become the original less any .9.png border, a rebuild is scheduled, and everything else (inner sprite, rotation, cap insets, scalar insets, mode, flips, scale) is kept; enabling without a framed inner sprite only sets the flag and releases the mesh |
| Scale9.SetSpriteFrame | cocos/ui/UIScale9Sprite.cpp:605-620 | the scalar insets are reset from the given rectangle; with a frame, the rectangle, rotation and offset are the frame's |
| Scale9.Init | cocos/ui/UIScale9Sprite.cpp:154-194 | no sprite or no texture: success with nothing changed; otherwise success iff the sprite has a frame, the .9.png flag follows the parsed insets, and the resolved insets are stored |
| Scale9.Prepared | cocos/ui/UIScale9Sprite.cpp:491-494 | preparing for a rebuild keeps the texture and the display setup; SLICE leaves the sprite untouched; SIMPLE on a framed sprite with a non-zero original size zeroes the four insets and makes the cap rectangle the whole original frame |
| Scale9.CreateSlicedSprites | cocos/ui/UIScale9Sprite.cpp:479-529 | without nine-slicing or a texture nothing happens; otherwise the stored mesh is the mesh of the sprite's own resulting configuration |
| Scale9.SliceRebuildOnlyTouchesMesh | cocos/ui/UIScale9Sprite.cpp:479-529 | in SLICE mode the rebuild changes nothing but the mesh |
| Scale9.Visit | cocos/ui/UIScale9Sprite.cpp:722-725 | with nine-slicing on the sprite leaves clean; a dirty one gets the mesh of its own configuration; otherwise nothing changes |
| Scale9.VisitIdempotent | cocos/ui/UIScale9Sprite.cpp:722-725 | a second visit with nothing changed in between does nothing |
| Scale9.FreshIsIdle | cocos/ui/UIScale9Sprite.cpp:39-55 | a freshly constructed sprite is clean, nine-slicing, in SLICE mode, and visiting or rebuilding it changes nothing |
| Scale9.ScaleXRoundTrip | cocos/ui/UIScale9Sprite.cpp:993-1001 | storing the visible x scale read by getScaleX changes nothing, and toggling the flip flag alone negates the visible x scale |
| Scale9.ScaleYRoundTrip | cocos/ui/UIScale9Sprite.cpp:1003-1011 | storing the visible y scale read by getScaleY changes nothing, and toggling the flip flag alone negates the visible y scale |
| Scale9.SetScaleX | cocos/ui/UIScale9Sprite.cpp:965-971 | the visible x scale reads back the value set, stored negated while flipped; nothing else changes |
| Scale9.SetScaleY | cocos/ui/UIScale9Sprite.cpp:973-979 | the visible y scale reads back the value set, stored negated while flipped; nothing else changes |
| Scale9.SetFlippedX | cocos/ui/UIScale9Sprite.cpp:940-946 | flipping keeps the visible x scale and negates the node's own x scale exactly when the flag changes |
| Scale9.SetFlippedY | cocos/ui/UIScale9Sprite.cpp:948-953 | flipping keeps the visible y scale and negates the node's own y scale exactly when the flag changes |
| Scale9.SetScale | cocos/ui/UIScale9Sprite.cpp:981-991 | both visible scales read back the values set; only the node scale changes |
| Scale9.GetScale | cocos/ui/UIScale9Sprite.cpp:1013-1018 | defined only when the axes agree, and then equal to both |
| Scale9.FlipTwiceRestores | cocos/ui/UIScale9Sprite.cpp:940-953 | flipping and flipping back restores the sprite exactly |
| Scale9.SetPreferredSize | cocos/ui/UIScale9Sprite.cpp:622-625 | the same size is a no-op; a new size becomes both the content and the preferred size, whatever the preferred size was, and schedules a rebuild, and nothing else changes |
| Scale9.SetCapInsetsAsWritten | cocos/ui/UIScale9Sprite.cpp:627-641 | setCapInsets over the as-written reload restores the content size |
| Scale9.PreferredSizeDriftsAsWritten | cocos/ui/UIScale9Sprite.cpp:443 | as written, reapplying insets to a .9.png sprite at its default size leaves the preferred size at the full original size, different from the content size |
| Scale9.PreferredSizeKeptCorrected | cocos/ui/UIScale9Sprite.cpp:461-466 | with the corrected reload, the same call keeps the preferred size equal to the content size, the original less the border |

## Left out

- Rendering: `draw`, the child traversal in `visit`, visibility, debug drawing, blend functions, the shader state (`setState`) and the `Sprite` polygon-info plumbing are not modelled. Only the mesh they would receive is.
- Lifecycle: the factories (`create*`, `initWith*`), reference counting, `cleanupSlicedSprites` as memory management, `resizableSpriteWithCapInsets`, `resetRender` and `setGlobalZOrder` are left out. They are wrappers or allocation.
- Anchor handling (`setAnchorPoint`, `adjustNoneScale9ImagePosition`) and `markDirty` on the transform are outside the geometry.
- Colour and opacity cascade (`updateDisplayedColor/Opacity`, `disableCascade*`) is left out. The displayed colour and opacity are inputs to the mesh.
- The simple getters (`getOriginalSize`, `getInset*`, `getCapInsets`, …) are field reads.
- Scale9.SetScale9Enabled: disabling copies the inner sprite's own quad into its polygon info; the model only releases the mesh.
- Mesh.VertexColor: the source multiplies a byte by a single-precision `opacity / 255.0f` and truncates; the model truncates the exact product.
- Equality of sizes and rectangles is exact; the source compares with a small epsilon.
- Scale9.UpdateWithSprite: follows the corrected reload of "## Findings". For a successful reload of a .9.png source whose content size already is the border-less size, the code keeps the full original size as the preferred size and this member stores the content size. Scale9.CorrectedReloadDepartsOnlyThere proves this is the only difference; Scale9.UpdateWithSpriteAsWritten is the code as written.
- Scale9.UpdateWithSpriteStores: states the corrected reload, so in the case above it promises the border-less preferred size the code does not store.
- Scale9.SelfReload: reloads through the corrected Scale9.UpdateWithSprite and inherits its one departure in the preferred size.
- Scale9.SetCapInsets: reloads through the corrected Scale9.UpdateWithSprite; Scale9.SetCapInsetsAsWritten is the code as written.
- Scale9.SetCapInsetsStores: states the corrected reload, whose preferred size can differ from the code's as above.
- Scale9.UpdateCapInset: reapplies the insets through the corrected Scale9.SetCapInsets and inherits its one departure in the preferred size.
- Scale9.SetInsetLeft: goes through the corrected Scale9.UpdateCapInset and inherits its one departure in the preferred size.
- Scale9.SetInsetTop: goes through the corrected Scale9.UpdateCapInset and inherits its one departure in the preferred size.
- Scale9.SetInsetRight: goes through the corrected Scale9.UpdateCapInset and inherits its one departure in the preferred size.
- Scale9.SetInsetBottom: goes through the corrected Scale9.UpdateCapInset and inherits its one departure in the preferred size.
- Scale9.ConfigureSimpleModeRendering: goes through the corrected inset setters; its promise that preferred and content size agree holds for the corrected reload, not for the code in the case above.
- Scale9.SetScale9Enabled: enabling reloads through the corrected Scale9.UpdateWithSprite and inherits its one departure in the preferred size.
- Scale9.SetSpriteFrame: reloads through the corrected Scale9.UpdateWithSprite and inherits its one departure in the preferred size.
- Scale9.Init: loads through the corrected Scale9.UpdateWithSprite and inherits its one departure in the preferred size.
- Scale9.Prepared: SIMPLE mode goes through the corrected Scale9.ConfigureSimpleModeRendering, so its preferred size can differ from the code's as above.
- Scale9.CreateSlicedSprites: in SIMPLE mode the preparation reloads through the corrected setters; in the case above the code lays the mesh out from the full original size, two points larger on each axis.
- Scale9.Visit: rebuilds through Scale9.CreateSlicedSprites and inherits its one departure in SIMPLE mode.
- Scale9.AdoptImage: `Sprite::setSpriteFrame` and `Sprite::setTexture` (Sprite.cpp) are not part of this model. The premultiply flag they re-derive on a texture change is modelled by the rule of this class's own `updateBlendFunc` (UIScale9Sprite.cpp:353-366); a frame without a texture counts as not premultiplied.
- Scale9.UpdateWithSprite: the identity of the inner sprite is by value, not by pointer, and the two image values are compared whole.
- Element counts are unbounded; the source stores them in `unsigned short`, which the 16 vertices and 54 indices fit.

## Findings

| source | as written | input that shows it | evidently intended | confidence | as-written member | corrected member |
|---|---|---|---|---|---|---|
| cocos/ui/UIScale9Sprite.cpp:443 | `updateWithSprite` stores the unadjusted original size as the preferred size, before the .9.png border is subtracted; the closing `setContentSize` returns early when the content size is already the adjusted one, so the preferred size is never corrected | a .9.png sprite at its default size (content = original − 2 on each axis), then `setCapInsets` with any rectangle (or any `setInset*`): preferred size = original, content size = original − 2, so the next rebuild lays the mesh out two points larger than the node | the preferred size tracks the displayed (adjusted) size, as it does after the first load | medium, not executed | Scale9.UpdateWithSpriteAsWritten, Scale9.PreferredSizeDriftsAsWritten | Scale9.UpdateWithSprite, Scale9.PreferredSizeKeptCorrected |

=== FILE: cap_insets.dfy ===
/** Where the cap insets come from, and how the sprite keeps its two
    representations of them (a rectangle and four scalar edges) in step. */
module CapInsets {
  import opened Geometry

  /** The gaps between a trimmed frame and its untrimmed original, per edge
      (UIScale9Sprite.cpp:502-506). `offset` is how far the frame's centre
      sits from the original's centre; y grows upwards, so a positive y
      offset widens the bottom gap. */
  function TrimOffsets(offset: Vec2, originalSize: Size, rectSize: Size): (o: Offsets)
    ensures o.left + o.right == originalSize.width - rectSize.width
    ensures o.top + o.bottom == originalSize.height - rectSize.height
    ensures o.left - o.right == 2.0 * offset.x
    ensures o.bottom - o.top == 2.0 * offset.y
    ensures offset == ZeroVec && originalSize == rectSize ==> o == NoOffsets
  {
    var left := offset.x + (originalSize.width - rectSize.width) / 2.0;
    var bottom := offset.y + (originalSize.height - rectSize.height) / 2.0;
    Offsets(left,
            originalSize.height - rectSize.height - bottom,
            originalSize.width - rectSize.width - left,
            bottom)
  }

  /** A .9.png source carries a one-pixel border on each side that is not
      image content (UIScale9Sprite.cpp:509-512). */
  function BorderlessSize(size: Size, isPatch9: bool): Size
  {
    if isPatch9 then Size(size.width - 2.0, size.height - 2.0) else size
  }

  /** Zero cap insets mean "cut into equal thirds" (UIScale9Sprite.cpp:515-519). */
  function EffectiveCapInsets(capInsets: Rect, size: Size): (r: Rect)
    ensures capInsets != ZeroRect ==> r == capInsets
    ensures capInsets == ZeroRect ==>
      && r.origin.x == r.size.width
      && r.size.width == size.width - (r.origin.x + r.size.width)
      && r.origin.y == r.size.height
      && r.size.height == size.height - (r.origin.y + r.size.height)
  {
    if capInsets == ZeroRect then
      Rect(Vec2(size.width / 3.0, size.height / 3.0), Size(size.width / 3.0, size.height / 3.0))
    else
      capInsets
  }

  /** The cap insets chosen at init and whether the source is a .9.png. */
  datatype Resolution = Resolution(capInsets: Rect, isPatch9: bool)

  /** Init-time resolution (UIScale9Sprite.cpp:169-183). `parsed` is None when
      the texture carries no 9-patch information, and otherwise the insets
      parsed from the frame's border. A non-zero parsed rectangle marks the
      source as a .9.png even when explicit insets win. */
  function ResolveCapInsets(explicit: Rect, parsed: Option<Rect>, wasPatch9: bool): (r: Resolution)
    ensures r.isPatch9 <==> wasPatch9 || (parsed.Some? && parsed.value != ZeroRect)
    ensures explicit != ZeroRect ==> r.capInsets == explicit
    ensures explicit == ZeroRect && parsed.Some? && parsed.value != ZeroRect ==>
      r.capInsets == parsed.value
    ensures (parsed.None? || parsed.value == ZeroRect) ==> r.capInsets == explicit
  {
    match parsed
    case Some(p) =>
      if p != ZeroRect then
        Resolution(if explicit == ZeroRect then p else explicit, true)
      else
        Resolution(explicit, wasPatch9)
    case None => Resolution(explicit, wasPatch9)
  }

  /** The four scalar insets: distances from each edge of the original image. */
  datatype EdgeInsets = EdgeInsets(left: real, top: real, right: real, bottom: real)

  const NoInsets := EdgeInsets(0.0, 0.0, 0.0, 0.0)

  /** updateCapInset (UIScale9Sprite.cpp:595-603): the rectangle whose origin
      is the (left, top) insets and whose size is what the four edges leave. */
  function InsetsToRect(i: EdgeInsets, originalSize: Size): (r: Rect)
    ensures r.origin == Vec2(i.left, i.top)
    ensures i.left + r.size.width + i.right == originalSize.width
    ensures i.top + r.size.height + i.bottom == originalSize.height
  {
    Rect(Vec2(i.left, i.top),
         Size(originalSize.width - i.left - i.right, originalSize.height - i.top - i.bottom))
  }

  /** The scalar insets a cap-inset rectangle implies (UIScale9Sprite.cpp:616-619
      and 636-639): the right and bottom insets are what lies beyond the centre. */
  function RectToInsets(r: Rect, originalSize: Size): (i: EdgeInsets)
    ensures i.left == r.origin.x && i.top == r.origin.y
    ensures r.origin.x + r.size.width + i.right == originalSize.width
    ensures r.origin.y + r.size.height + i.bottom == originalSize.height
  {
    EdgeInsets(r.origin.x, r.origin.y,
               originalSize.width - r.origin.x - r.size.width,
               originalSize.height - r.origin.y - r.size.height)
  }

  /** Storing a rectangle as scalars and rebuilding it gives it back. */
  lemma RectInsetsRoundTrip(r: Rect, originalSize: Size)
    ensures InsetsToRect(RectToInsets(r, originalSize), originalSize) == r
  {
  }

  /** Building the rectangle from scalars and reading them back gives them back. */
  lemma InsetsRectRoundTrip(i: EdgeInsets, originalSize: Size)
    ensures RectToInsets(InsetsToRect(i, originalSize), originalSize) == i
  {
  }

  /** The default thirds give three equal columns and three equal rows. */
  lemma DefaultInsetsAreThirds(size: Size)
    ensures var r := EffectiveCapInsets(ZeroRect, size);
      && RectToInsets(r, size) == EdgeInsets(size.width / 3.0, size.height / 3.0, size.width / 3.0, size.height / 3.0)
      && r.size == Size(size.width / 3.0, size.height / 3.0)
  {
  }
}

=== FILE: geometry.dfy ===
/** Value types shared by every stage of the nine-slice pipeline.

    Coordinates are reals: the model follows the algebra of the
    single-precision source, not its rounding. */
module Geometry {

  /** An optional value, for the source's nullable pointers. */
  datatype Option<+T> = None | Some(value: T)

  datatype Vec2 = Vec2(x: real, y: real)

  datatype Size = Size(width: real, height: real)

  /** An axis-aligned rectangle. A cap-inset rectangle reads its origin as
      the (left, top) insets and its size as the stretchable centre. */
  datatype Rect = Rect(origin: Vec2, size: Size)

  const ZeroVec := Vec2(0.0, 0.0)
  const ZeroSize := Size(0.0, 0.0)
  const ZeroRect := Rect(ZeroVec, ZeroSize)

  /** The per-edge trim offsets (the source packs them in a Vec4 as
      x = left, y = top, z = right, w = bottom). */
  datatype Offsets = Offsets(left: real, top: real, right: real, bottom: real)

  const NoOffsets := Offsets(0.0, 0.0, 0.0, 0.0)

  /** SIMPLE stretches the whole frame as one quad; SLICE cuts it 3×3. */
  datatype RenderingType = Simple | Slice

  /** Number of boundaries per axis, and so the side of the vertex grid. */
  function GridSize(t: RenderingType): nat
  {
    if t == Simple then 2 else 4
  }

  /** The points-to-pixels conversions: multiply by the content scale factor. */
  function VecToPixels(v: Vec2, scale: real): Vec2
  {
    Vec2(v.x * scale, v.y * scale)
  }

  function SizeToPixels(s: Size, scale: real): Size
  {
    Size(s.width * scale, s.height * scale)
  }

  function RectToPixels(r: Rect, scale: real): Rect
  {
    Rect(VecToPixels(r.origin, scale), SizeToPixels(r.size, scale))
  }
}

=== FILE: mesh.dfy ===
/** calculateTriangles: the vertex grid and index buffer handed to the
    renderer (UIScale9Sprite.cpp:1263-1360). The pure functions state the
    layout; the methods follow the source's loops and are proved to build
    exactly that layout. */
module Mesh {
  import opened Geometry

  /** An unsigned 8-bit value, as a colour channel or an opacity is stored. */
  type Byte = x: nat | x < 256

  datatype Color3 = Color3(r: Byte, g: Byte, b: Byte)
  datatype Color4 = Color4(r: Byte, g: Byte, b: Byte, a: Byte)

  datatype Vertex = Vertex(position: Vec2, color: Color4, texCoord: Vec2)

  /** The mesh: vertices and the triangle list indexing them. */
  datatype Triangles = Triangles(verts: seq<Vertex>, indices: seq<nat>)

  /** The one colour every vertex carries (UIScale9Sprite.cpp:1279-1289):
      the displayed colour with the displayed opacity as alpha; a texture
      with premultiplied alpha also scales the colour channels by
      opacity / 255, truncated to a whole byte. */
  function VertexColor(c: Color3, opacity: Byte, premultiply: bool): (r: Color4)
    ensures r.a == opacity
    ensures !premultiply ==> r.r == c.r && r.g == c.g && r.b == c.b
    ensures premultiply ==>
      && r.r * 255 <= c.r * opacity < (r.r + 1) * 255
      && r.g * 255 <= c.g * opacity < (r.g + 1) * 255
      && r.b * 255 <= c.b * opacity < (r.b + 1) * 255
  {
    if premultiply then
      Color4(Premultiplied(c.r, opacity), Premultiplied(c.g, opacity), Premultiplied(c.b, opacity), opacity)
    else
      Color4(c.r, c.g, c.b, opacity)
  }

  /** One channel scaled by opacity / 255 and truncated. */
  function Premultiplied(c: Byte, opacity: Byte): (q: Byte)
    ensures q * 255 <= c * opacity < (q + 1) * 255
  {
    ScaledChannel(c, opacity);
    c * opacity / 255
  }

  /** A channel scaled by opacity / 255 still fits in a byte. */
  lemma ScaledChannel(c: Byte, opacity: Byte)
    ensures c * opacity / 255 < 256
  {
    assert c * opacity <= 255 * opacity <= 255 * 255;
  }

  /** The vertex at column i, row j: position from the i-th x and j-th y
      boundary; texture coordinate from the i-th u and j-th v boundary, or
      the other way round for a frame stored rotated in the atlas. */
  function GridVertex(uv: seq<Vec2>, xy: seq<Vec2>, rotated: bool, color: Color4, i: nat, j: nat): Vertex
    requires i < |xy| && j < |xy| && |uv| == |xy|
  {
    Vertex(Vec2(xy[i].x, xy[j].y),
           color,
           if rotated then Vec2(uv[j].x, uv[i].y) else Vec2(uv[i].x, uv[j].y))
  }

  /** Slot of column i, row j in a grid g vertices wide. */
  function GridSlot(i: nat, j: nat, g: nat): nat
  {
    i + j * g
  }

  lemma GridSlotInverse(i: nat, j: nat, g: nat)
    requires g == 2 || g == 4
    requires i < g
    ensures GridSlot(i, j, g) % g == i && GridSlot(i, j, g) / g == j
  {
  }

  /** The g×g grid of vertices, row by row (UIScale9Sprite.cpp:1291-1324). */
  function VertexGrid(uv: seq<Vec2>, xy: seq<Vec2>, rotated: bool, color: Color4, t: RenderingType): (vs: seq<Vertex>)
    requires |uv| == GridSize(t) && |xy| == GridSize(t)
    ensures |vs| == GridSize(t) * GridSize(t)
  {
    var g := GridSize(t);
    seq(g * g, n requires 0 <= n < g * g => GridVertex(uv, xy, rotated, color, n % g, n / g))
  }

  /** Vertex i + j·g of the grid sits at (x_i, y_j), samples (u_i, v_j) (or
      (u_j, v_i) for a rotated frame), and every vertex has the same colour. */
  lemma VertexGridLayout(uv: seq<Vec2>, xy: seq<Vec2>, rotated: bool, color: Color4, t: RenderingType)
    requires |uv| == GridSize(t) && |xy| == GridSize(t)
    ensures var vs := VertexGrid(uv, xy, rotated, color, t);
      && (forall n :: 0 <= n < |vs| ==> vs[n].color == color)
      && (forall i, j :: 0 <= i < GridSize(t) && 0 <= j < GridSize(t) ==>
            && vs[GridSlot(i, j, GridSize(t))].position == Vec2(xy[i].x, xy[j].y)
            && vs[GridSlot(i, j, GridSize(t))].texCoord
               == (if rotated then Vec2(uv[j].x, uv[i].y) else Vec2(uv[i].x, uv[j].y)))
  {
    var g := GridSize(t);
    var vs := VertexGrid(uv, xy, rotated, color, t);
    forall i, j | 0 <= i < g && 0 <= j < g
      ensures vs[GridSlot(i, j, g)] == GridVertex(uv, xy, rotated, color, i, j)
    {
      GridSlotInverse(i, j, g);
      assert GridSlot(i, j, g) < g * g by {
        if g == 2 { assert GridSlot(i, j, g) == i + 2 * j; } else { assert GridSlot(i, j, g) == i + 4 * j; }
      }
    }
  }

  /** The two triangles of one grid cell, as offsets from its bottom-left
      vertex in a 4-wide grid (UIScale9Sprite.cpp:1276). */
  const QuadPattern: seq<nat> := [4, 0, 5, 1, 5, 0]

  /** The single quad of SIMPLE mode (UIScale9Sprite.cpp:1277). */
  const SimpleQuad: seq<nat> := [0, 1, 2, 3, 2, 1]

  /** Slot k of cell (i, j) in the SLICE index buffer. */
  function CellSlot(i: nat, j: nat, k: nat): nat
  {
    (i + 3 * j) * 6 + k
  }

  lemma CellSlotInverse(i: nat, j: nat, k: nat)
    requires i < 3 && j < 3 && k < 6
    ensures var n := CellSlot(i, j, k); n < 54 && n % 6 == k && n / 18 == j && (n / 6) % 3 == i
  {
  }

  /** The SLICE index buffer, slot by slot. */
  function SliceIndexBuffer(): (idx: seq<nat>)
    ensures |idx| == 54
  {
    seq(54, n requires 0 <= n < 54 => QuadPattern[n % 6] + 4 * (n / 18) + (n / 6) % 3)
  }

  /** Cell (i, j) of the 3×3 grid occupies the six slots from (i + 3j)·6 and
      holds the pattern shifted to the cell's corner i + 4j; so every index
      names one of the 16 vertices. */
  lemma SliceIndexLayout()
    ensures var idx := SliceIndexBuffer();
      && (forall i, j, k :: 0 <= i < 3 && 0 <= j < 3 && 0 <= k < 6 ==>
            idx[CellSlot(i, j, k)] == QuadPattern[k] + 4 * j + i)
      && (forall n :: 0 <= n < |idx| ==> idx[n] < 16)
  {
    var idx := SliceIndexBuffer();
    forall i, j, k | 0 <= i < 3 && 0 <= j < 3 && 0 <= k < 6
      ensures idx[CellSlot(i, j, k)] == QuadPattern[k] + 4 * j + i
    {
      CellSlotInverse(i, j, k);
    }
    forall n | 0 <= n < |idx|
      ensures idx[n] < 16
    {
      assert n / 18 <= 2 && (n / 6) % 3 <= 2;
    }
  }

  /** Vertex slot of column c, row r in the 4×4 SLICE grid. */
  function Corner(c: nat, r: nat): nat
  {
    GridSlot(c, r, 4)
  }

  /** Each SLICE cell is drawn over exactly its own four corners, as the two
      triangles (top-left, bottom-left, top-right) and (bottom-right,
      top-right, bottom-left), with y growing upwards. */
  lemma SliceCellTriangles(i: nat, j: nat)
    requires i < 3 && j < 3
    ensures var idx := SliceIndexBuffer(); var b := CellSlot(i, j, 0);
      && idx[b] == Corner(i, j + 1) && idx[b + 1] == Corner(i, j) && idx[b + 2] == Corner(i + 1, j + 1)
      && idx[b + 3] == Corner(i + 1, j) && idx[b + 4] == Corner(i + 1, j + 1) && idx[b + 5] == Corner(i, j)
  {
    SliceIndexAt(i, j, 0);
    SliceIndexAt(i, j, 1);
    SliceIndexAt(i, j, 2);
    SliceIndexAt(i, j, 3);
    SliceIndexAt(i, j, 4);
    SliceIndexAt(i, j, 5);
  }

  lemma SliceIndexAt(i: nat, j: nat, k: nat)
    requires i < 3 && j < 3 && k < 6
    ensures CellSlot(i, j, k) == CellSlot(i, j, 0) + k
    ensures SliceIndexBuffer()[CellSlot(i, j, k)] == QuadPattern[k] + 4 * j + i
  {
    CellSlotInverse(i, j, k);
  }

  /** The SIMPLE quad draws two triangles over the four vertices of a 2×2 grid. */
  lemma SimpleQuadCorners()
    ensures forall n :: 0 <= n < |SimpleQuad| ==> SimpleQuad[n] < 4
    ensures 0 in SimpleQuad && 1 in SimpleQuad && 2 in SimpleQuad && 3 in SimpleQuad
  {
  }

  /** The mesh handed to the renderer (UIScale9Sprite.cpp:1263-1360):
      g² vertices and 6·(g-1)² indices, every index naming a vertex. */
  function CalculateTriangles(uv: seq<Vec2>, xy: seq<Vec2>, rotated: bool, t: RenderingType,
                              color: Color3, opacity: Byte, premultiply: bool): (tri: Triangles)
    requires |uv| == GridSize(t) && |xy| == GridSize(t)
    ensures |tri.verts| == GridSize(t) * GridSize(t)
    ensures |tri.indices| == 6 * (GridSize(t) - 1) * (GridSize(t) - 1)
    ensures forall n :: 0 <= n < |tri.indices| ==> tri.indices[n] < |tri.verts|
    ensures forall n :: 0 <= n < |tri.verts| ==> tri.verts[n].color.a == opacity
  {
    var verts := VertexGrid(uv, xy, rotated, VertexColor(color, opacity, premultiply), t);
    if t == Slice then
      Triangles(verts, SliceIndexBuffer())
    else
      SimpleQuadCorners();
      Triangles(verts, SimpleQuad)
  }

  /** A SIMPLE mesh is one quad from the first position and UV boundary to
      the last ones, drawn as two triangles. */
  lemma SimpleTriangles(uv: seq<Vec2>, xy: seq<Vec2>, rotated: bool,
                        color: Color3, opacity: Byte, premultiply: bool)
    requires |uv| == 2 && |xy| == 2
    ensures var tri := CalculateTriangles(uv, xy, rotated, Simple, color, opacity, premultiply);
      && |tri.verts| == 4
      && tri.verts[0].position == xy[0] && tri.verts[3].position == xy[1]
      && tri.verts[0].texCoord == uv[0] && tri.verts[3].texCoord == uv[1]
      && tri.indices == SimpleQuad
  {
    var c := VertexColor(color, opacity, premultiply);
    var vs := VertexGrid(uv, xy, rotated, c, Simple);
    assert CalculateTriangles(uv, xy, rotated, Simple, color, opacity, premultiply) == Triangles(vs, SimpleQuad);
    assert vs[0] == GridVertex(uv, xy, rotated, c, 0, 0);
    assert vs[3] == GridVertex(uv, xy, rotated, c, 1, 1);
  }

  /** The source's index loops (UIScale9Sprite.cpp:1326-1346): walk the
      4×4 vertex grid, and for each cell copy the pattern to the next free
      slot, then shift the slot (i + 3j)·6 onwards by the cell's corner. */
  method WriteSliceIndices() returns (buf: seq<nat>)
    ensures buf == SliceIndexBuffer()
  {
    var target := SliceIndexBuffer();
    buf := seq(54, _ => 0);
    var start := 0;
    var j := 0;
    while j <= 3
      invariant 0 <= j <= 4
      invariant |buf| == 54
      invariant start == 18 * (if j < 3 then j else 3)
      invariant forall n :: 0 <= n < start ==> buf[n] == target[n]
    {
      var i := 0;
      while i <= 3
        invariant 0 <= i <= 4
        invariant |buf| == 54
        invariant j < 3 ==> start == 18 * j + 6 * (if i < 3 then i else 3)
        invariant j >= 3 ==> start == 54
        invariant forall n :: 0 <= n < start ==> buf[n] == target[n]
      {
        if i < 3 && j < 3 {
          var k := 0;
          while k < 6
            invariant 0 <= k <= 6
            invariant |buf| == 54
            invariant forall n :: 0 <= n < start ==> buf[n] == target[n]
            invariant forall n :: start <= n < start + k ==> buf[n] == QuadPattern[n - start]
          {
            buf := buf[start + k := QuadPattern[k]];
            k := k + 1;
          }
          k := 0;
          while k < 6
            invariant 0 <= k <= 6
            invariant |buf| == 54
            invariant forall n :: 0 <= n < start + k ==> buf[n] == target[n]
            invariant forall n :: start + k <= n < start + 6 ==> buf[n] == QuadPattern[n - start]
          {
            var actual := (i + j * 3) * 6;
            CellSlotInverse(i, j, k);
            assert k + actual == CellSlot(i, j, k);
            buf := buf[k + actual := buf[k + actual] + j * 4 + i];
            k := k + 1;
          }
          start := start + 6;
        }
        i := i + 1;
      }
      j := j + 1;
    }
  }

  /** The source's vertex loops (UIScale9Sprite.cpp:1291-1324): for every row
      j and column i, store the grid vertex at slot i + 4j (SLICE) or
      i + 2j (SIMPLE) of a freshly allocated buffer. */
  method AssembleVertices(uv: seq<Vec2>, xy: seq<Vec2>, rotated: bool, color: Color4, t: RenderingType)
    returns (buf: seq<Vertex>)
    requires |uv| == GridSize(t) && |xy| == GridSize(t)
    ensures buf == VertexGrid(uv, xy, rotated, color, t)
  {
    var g := GridSize(t);
    var target := VertexGrid(uv, xy, rotated, color, t);
    buf := seq(g * g, _ => Vertex(ZeroVec, color, ZeroVec));
    var last := |xy| - 1;
    var j := 0;
    while j <= last
      invariant 0 <= j <= g
      invariant |buf| == g * g
      invariant forall n :: 0 <= n < j * g ==> buf[n] == target[n]
    {
      var i := 0;
      while i <= last
        invariant 0 <= i <= g
        invariant |buf| == g * g
        invariant forall n :: 0 <= n < j * g + i ==> buf[n] == target[n]
      {
        var v := GridVertex(uv, xy, rotated, color, i, j);
        if t == Slice {
          buf := buf[i + j * 4 := v];
        } else {
          buf := buf[i + j * 2 := v];
        }
        i := i + 1;
      }
      j := j + 1;
    }
  }
}

=== FILE: positions.dfy ===
/** calculateVertices: the content-space boundaries of the mesh
    (UIScale9Sprite.cpp:1153-1261). Inputs are in pixels and are divided by
    the content scale factor; the preferred size is already in points. */
module Positions {
  import opened Geometry

  /** One axis of a SLICE layout before trimming, in points: the leading
      corner, the centre and the trailing corner of the source, and the
      trim offsets at either end. Along x the left corner leads; along y the
      bottom corner leads. */
  datatype AxisInput = AxisInput(lead: real, center: real, trail: real, offLead: real, offTrail: real)

  /** The same axis after trimming: where it starts and the three lengths
      laid end to end. */
  datatype AxisLayout = AxisLayout(start: real, lead: real, sizable: real, trail: real)

  function XInput(capInsets: Rect, originalSize: Size, offsets: Offsets, scale: real): AxisInput
    requires scale > 0.0
  {
    AxisInput(capInsets.origin.x / scale,
              capInsets.size.width / scale,
              (originalSize.width - (capInsets.origin.x + capInsets.size.width)) / scale,
              offsets.left / scale,
              offsets.right / scale)
  }

  function YInput(capInsets: Rect, originalSize: Size, offsets: Offsets, scale: real): AxisInput
    requires scale > 0.0
  {
    AxisInput((originalSize.height - (capInsets.origin.y + capInsets.size.height)) / scale,
              capInsets.size.height / scale,
              capInsets.origin.y / scale,
              offsets.bottom / scale,
              offsets.top / scale)
  }

  /** The centre's stretch factor (sizable / centre) is only used when a
      trim offset eats into its corner; it must then be finite. */
  predicate StretchDefined(a: AxisInput)
  {
    (a.lead < a.offLead || a.trail < a.offTrail) ==> a.center != 0.0
  }

  /** Trimming one axis (UIScale9Sprite.cpp:1192-1224). The trim offsets are
      cut from the corners; a corner that goes negative is zeroed, and the
      deficit, stretched like the centre, comes out of the sizable length
      (a leading deficit also moves the start). */
  function TrimAxis(a: AxisInput, pref: real): (r: AxisLayout)
    requires StretchDefined(a)
    ensures r.lead >= 0.0 && r.trail >= 0.0
    ensures a.lead >= a.offLead ==> r.start == a.offLead && r.lead == a.lead - a.offLead
    ensures a.trail >= a.offTrail ==> r.trail == a.trail - a.offTrail
    ensures a.trail >= a.offTrail ==> r.start + r.lead + r.sizable + r.trail == pref - a.offTrail
    ensures a.lead >= a.offLead && a.trail >= a.offTrail ==> r.sizable == pref - a.lead - a.trail
  {
    var sizable := pref - a.lead - a.trail;
    var l := a.lead - a.offLead;
    var t := a.trail - a.offTrail;
    var afterLead :=
      if l < 0.0 then
        var stretch := sizable / a.center;
        AxisLayout(a.offLead - l * (stretch - 1.0), 0.0, sizable + l * stretch, t)
      else
        AxisLayout(a.offLead, l, sizable, t);
    if t < 0.0 then
      afterLead.(sizable := afterLead.sizable + t * (sizable / a.center), trail := 0.0)
    else
      afterLead
  }

  /** In the shrink case the corners are rescaled by pref / (lead + trail). */
  predicate CollapseDefined(r: AxisLayout)
  {
    r.sizable < 0.0 ==> r.lead + r.trail != 0.0
  }

  predicate AxisDefined(a: AxisInput, pref: real)
  {
    StretchDefined(a) && CollapseDefined(TrimAxis(a, pref))
  }

  /** The four boundaries of a trimmed axis (UIScale9Sprite.cpp:1226-1256).
      When the sizable length is not negative the spans are laid end to end;
      otherwise the corners are scaled to fill the preferred length exactly,
      keeping their proportion, and the centre collapses to nothing. */
  function AxisBoundaries(r: AxisLayout, pref: real): (b: seq<real>)
    requires CollapseDefined(r)
    ensures |b| == 4 && b[0] == r.start
    ensures r.sizable >= 0.0 ==>
      b[1] - b[0] == r.lead && b[2] - b[1] == r.sizable && b[3] - b[2] == r.trail
    ensures r.sizable < 0.0 ==>
      && b[1] == b[2]
      && b[3] - b[0] == pref
      && (b[1] - b[0]) * r.trail == (b[3] - b[2]) * r.lead
  {
    if r.sizable >= 0.0 then
      [r.start, r.start + r.lead, r.start + r.lead + r.sizable, r.start + r.lead + r.sizable + r.trail]
    else
      var k := pref / (r.lead + r.trail);
      assert r.lead * k + r.trail * k == pref by {
        assert r.lead * k + r.trail * k == (r.lead + r.trail) * k;
      }
      [r.start, r.start + r.lead * k, r.start + r.lead * k, r.start + r.lead * k + r.trail * k]
  }

  /** What calculateVertices needs to avoid dividing by zero. */
  predicate VerticesDefined(capInsets: Rect, originalSize: Size, offsets: Offsets,
                            preferred: Size, scale: real, t: RenderingType)
  {
    && scale > 0.0
    && (t == Simple ==> originalSize.width != 0.0 && originalSize.height != 0.0)
    && (t == Slice ==>
          && AxisDefined(XInput(capInsets, originalSize, offsets, scale), preferred.width)
          && AxisDefined(YInput(capInsets, originalSize, offsets, scale), preferred.height))
  }

  function XBoundaries(capInsets: Rect, originalSize: Size, offsets: Offsets, preferred: Size, scale: real): seq<real>
    requires scale > 0.0 && AxisDefined(XInput(capInsets, originalSize, offsets, scale), preferred.width)
  {
    AxisBoundaries(TrimAxis(XInput(capInsets, originalSize, offsets, scale), preferred.width), preferred.width)
  }

  function YBoundaries(capInsets: Rect, originalSize: Size, offsets: Offsets, preferred: Size, scale: real): seq<real>
    requires scale > 0.0 && AxisDefined(YInput(capInsets, originalSize, offsets, scale), preferred.height)
  {
    AxisBoundaries(TrimAxis(YInput(capInsets, originalSize, offsets, scale), preferred.height), preferred.height)
  }

  /** The content-space boundaries (UIScale9Sprite.cpp:1153-1261). SIMPLE
      scales the trimmed frame by preferred / original; SLICE lays out each
      axis on its own. Entry k holds the k-th x and the k-th y boundary. */
  function CalculateVertices(capInsets: Rect, originalSize: Size, offsets: Offsets,
                             preferred: Size, scale: real, t: RenderingType): (v: seq<Vec2>)
    requires VerticesDefined(capInsets, originalSize, offsets, preferred, scale, t)
    ensures |v| == GridSize(t)
    ensures t == Simple && offsets == NoOffsets ==>
      v == [Vec2(0.0, 0.0), Vec2(preferred.width, preferred.height)]
  {
    if t == Simple then
      var hScale := preferred.width / (originalSize.width / scale);
      var vScale := preferred.height / (originalSize.height / scale);
      [Vec2(offsets.left / scale * hScale, offsets.bottom / scale * vScale),
       Vec2(preferred.width - offsets.right / scale * hScale,
            preferred.height - offsets.top / scale * vScale)]
    else
      var xs := XBoundaries(capInsets, originalSize, offsets, preferred, scale);
      var ys := YBoundaries(capInsets, originalSize, offsets, preferred, scale);
      [Vec2(xs[0], ys[0]), Vec2(xs[1], ys[1]), Vec2(xs[2], ys[2]), Vec2(xs[3], ys[3])]
  }

  /** (off / s) * (p / (o / s)) is p scaled by off / o. */
  lemma ScaledTrim(off: real, p: real, o: real, s: real)
    requires o != 0.0 && s > 0.0
    ensures off / s * (p / (o / s)) * o == p * off
  {
    var q := o / s;
    assert q * s == o;
    assert q != 0.0;
    var h := p / q;
    assert h * q == p;
    calc {
      off / s * h * o;
      == { assert o == q * s; }
      off / s * h * (q * s);
      == (off / s * s) * (h * q);
      == { assert off / s * s == off; }
      off * p;
    }
  }

  /** SIMPLE: the quad is the preferred size scaled by the fraction of the
      original that the trimmed frame covers, along each axis. */
  lemma SimpleQuadScalesTrimmedFrame(capInsets: Rect, originalSize: Size, offsets: Offsets,
                                     preferred: Size, scale: real)
    requires VerticesDefined(capInsets, originalSize, offsets, preferred, scale, Simple)
    ensures var v := CalculateVertices(capInsets, originalSize, offsets, preferred, scale, Simple);
      && (v[1].x - v[0].x) * originalSize.width
         == preferred.width * (originalSize.width - offsets.left - offsets.right)
      && (v[1].y - v[0].y) * originalSize.height
         == preferred.height * (originalSize.height - offsets.top - offsets.bottom)
  {
    var v := CalculateVertices(capInsets, originalSize, offsets, preferred, scale, Simple);
    var hScale := preferred.width / (originalSize.width / scale);
    var vScale := preferred.height / (originalSize.height / scale);
    ScaledTrim(offsets.left, preferred.width, originalSize.width, scale);
    ScaledTrim(offsets.right, preferred.width, originalSize.width, scale);
    ScaledTrim(offsets.bottom, preferred.height, originalSize.height, scale);
    ScaledTrim(offsets.top, preferred.height, originalSize.height, scale);
    assert v[1].x - v[0].x == preferred.width - offsets.right / scale * hScale - offsets.left / scale * hScale;
    assert v[1].y - v[0].y == preferred.height - offsets.top / scale * vScale - offsets.bottom / scale * vScale;
  }

  /** At its natural size (the preferred size is the original's, in points)
      a SIMPLE quad is not scaled at all: its corners sit at the left and
      bottom trims and at the preferred size less the right and top trims. */
  lemma SimpleQuadAtNaturalSize(capInsets: Rect, originalSize: Size, offsets: Offsets,
                                preferred: Size, scale: real)
    requires VerticesDefined(capInsets, originalSize, offsets, preferred, scale, Simple)
    requires originalSize == Size(preferred.width * scale, preferred.height * scale)
    ensures CalculateVertices(capInsets, originalSize, offsets, preferred, scale, Simple)
         == [Vec2(offsets.left / scale, offsets.bottom / scale),
             Vec2(preferred.width - offsets.right / scale, preferred.height - offsets.top / scale)]
  {
    assert originalSize.width / scale == preferred.width;
    assert originalSize.height / scale == preferred.height;
    assert preferred.width / (originalSize.width / scale) == 1.0;
    assert preferred.height / (originalSize.height / scale) == 1.0;
  }

  /** Where point p of the untrimmed source lands when the axis is
      stretched to `pref` without any trim: the leading corner is copied,
      the centre is scaled by sizable / centre, and the trailing corner is
      copied so that it ends at `pref`. */
  function Place(a: AxisInput, pref: real, p: real): real
    requires a.center != 0.0
  {
    if p <= a.lead then p
    else if p <= a.lead + a.center then a.lead + (p - a.lead) * ((pref - a.lead - a.trail) / a.center)
    else pref - (a.lead + a.center + a.trail - p)
  }

  /** A trimmed frame covers the source from offLead to the far end less
      offTrail. Even when a trim eats into its corner, the trimmed axis starts
      and ends exactly where those two points land in the untrimmed stretch,
      so the trimmed frame is drawn over the part of the stretch it covers. */
  lemma TrimAxisSamplesStretch(a: AxisInput, pref: real)
    requires a.center > 0.0
    requires a.offLead <= a.lead + a.center && a.offTrail <= a.trail + a.center
    ensures StretchDefined(a)
    ensures var r := TrimAxis(a, pref);
      && r.start == Place(a, pref, a.offLead)
      && r.start + r.lead + r.sizable + r.trail == Place(a, pref, a.lead + a.center + a.trail - a.offTrail)
  {
    TrimStartPlaced(a, pref);
    TrimEndPlaced(a, pref);
  }

  /** The trimmed axis starts where offLead lands in the stretch. */
  lemma TrimStartPlaced(a: AxisInput, pref: real)
    requires a.center > 0.0 && a.offLead <= a.lead + a.center
    ensures TrimAxis(a, pref).start == Place(a, pref, a.offLead)
  {
    if a.offLead > a.lead {
      var k := (pref - a.lead - a.trail) / a.center;
      var l := a.lead - a.offLead;
      assert TrimAxis(a, pref).start == a.offLead - l * (k - 1.0);
      assert a.offLead - l * (k - 1.0) == a.lead + (a.offLead - a.lead) * k;
    }
  }

  /** The trimmed axis ends where the far end less offTrail lands in the
      stretch: before the trailing trim it ends at lead + sizable, and a
      trim into the trailing corner removes t * k of the centre. */
  lemma TrimEndPlaced(a: AxisInput, pref: real)
    requires a.center > 0.0 && a.offTrail <= a.trail + a.center
    ensures var r := TrimAxis(a, pref);
      r.start + r.lead + r.sizable + r.trail == Place(a, pref, a.lead + a.center + a.trail - a.offTrail)
  {
    var r := TrimAxis(a, pref);
    var sizable := pref - a.lead - a.trail;
    var k := sizable / a.center;
    assert a.center * k == sizable;
    var l := a.lead - a.offLead;
    var t := a.trail - a.offTrail;
    var head := r.start + r.lead + r.sizable - (if t < 0.0 then t * k else 0.0);
    if l < 0.0 {
      assert head == (a.offLead - l * (k - 1.0)) + (sizable + l * k);
    } else {
      assert head == a.offLead + l + sizable;
    }
    assert head == a.lead + sizable;
    var p := a.lead + a.center + t;
    if t < 0.0 {
      assert r.trail == 0.0;
      if p <= a.lead {
        assert a.center + t == 0.0;
      } else {
        assert p - a.lead == a.center + t;
        assert Place(a, pref, p) == a.lead + (p - a.lead) * k;
      }
      assert Place(a, pref, p) == a.lead + (a.center + t) * k;
      assert a.lead + (a.center + t) * k == a.lead + sizable + t * k;
    } else if t == 0.0 {
      assert r.trail == 0.0;
      assert Place(a, pref, p) == a.lead + a.center * k;
    } else {
      assert r.trail == t;
      assert Place(a, pref, p) == pref - (a.trail - t);
    }
  }

  /** One axis never runs backwards: trimmed corners are never negative, and
      in the shrink case the scale factor is not negative either. */
  lemma AxisOrdered(a: AxisInput, pref: real)
    requires AxisDefined(a, pref)
    requires pref >= 0.0
    ensures var b := AxisBoundaries(TrimAxis(a, pref), pref);
      b[0] <= b[1] <= b[2] <= b[3]
  {
    var r := TrimAxis(a, pref);
    if r.sizable < 0.0 {
      var k := pref / (r.lead + r.trail);
      assert r.lead + r.trail > 0.0;
      assert k >= 0.0;
      assert r.lead * k >= 0.0;
      assert r.trail * k >= 0.0;
    }
  }

  /** SLICE: for any preferred size that is not negative, the x boundaries and
      the y boundaries are non-decreasing. */
  lemma SliceVerticesOrdered(capInsets: Rect, originalSize: Size, offsets: Offsets,
                             preferred: Size, scale: real)
    requires VerticesDefined(capInsets, originalSize, offsets, preferred, scale, Slice)
    requires preferred.width >= 0.0 && preferred.height >= 0.0
    ensures var v := CalculateVertices(capInsets, originalSize, offsets, preferred, scale, Slice);
      forall k :: 0 < k < |v| ==> v[k - 1].x <= v[k].x && v[k - 1].y <= v[k].y
  {
    AxisOrdered(XInput(capInsets, originalSize, offsets, scale), preferred.width);
    AxisOrdered(YInput(capInsets, originalSize, offsets, scale), preferred.height);
  }

  /** The stretch case of one axis with the trim inside both corners: the
      axis starts at the leading trim, its first corner keeps its size, and
      it ends at the preferred length less the trailing trim. */
  lemma AxisStretch(a: AxisInput, pref: real)
    requires a.lead >= a.offLead && a.trail >= a.offTrail
    requires pref - a.lead - a.trail >= 0.0
    ensures AxisDefined(a, pref)
    ensures var b := AxisBoundaries(TrimAxis(a, pref), pref);
      && b[0] == a.offLead && b[1] == a.lead
      && b[2] == pref - a.trail && b[3] == pref - a.offTrail
      && b[0] <= b[1] <= b[2] <= b[3]
  {
  }

  /** SLICE stretch case: with the trim inside the corners and room for the
      centre, x runs from the left trim through the left corner to the
      preferred width less the right trim; y likewise from the bottom. With
      no trim, x0 = 0, x1 = left inset and x3 = preferred width. */
  lemma SliceStretch(capInsets: Rect, originalSize: Size, offsets: Offsets,
                     preferred: Size, scale: real)
    requires scale > 0.0
    requires var x := XInput(capInsets, originalSize, offsets, scale);
      x.lead >= x.offLead && x.trail >= x.offTrail && preferred.width - x.lead - x.trail >= 0.0
    requires var y := YInput(capInsets, originalSize, offsets, scale);
      y.lead >= y.offLead && y.trail >= y.offTrail && preferred.height - y.lead - y.trail >= 0.0
    ensures VerticesDefined(capInsets, originalSize, offsets, preferred, scale, Slice)
    ensures var v := CalculateVertices(capInsets, originalSize, offsets, preferred, scale, Slice);
      && v[0].x == offsets.left / scale
      && v[1].x == capInsets.origin.x / scale
      && v[2].x == preferred.width - (originalSize.width - (capInsets.origin.x + capInsets.size.width)) / scale
      && v[3].x == preferred.width - offsets.right / scale
      && v[0].y == offsets.bottom / scale
      && v[1].y == (originalSize.height - (capInsets.origin.y + capInsets.size.height)) / scale
      && v[2].y == preferred.height - capInsets.origin.y / scale
      && v[3].y == preferred.height - offsets.top / scale
      && v[0].x <= v[1].x <= v[2].x <= v[3].x
      && v[0].y <= v[1].y <= v[2].y <= v[3].y
      && (offsets == NoOffsets ==> v[0] == Vec2(0.0, 0.0) && v[3] == Vec2(preferred.width, preferred.height))
  {
    AxisStretch(XInput(capInsets, originalSize, offsets, scale), preferred.width);
    AxisStretch(YInput(capInsets, originalSize, offsets, scale), preferred.height);
  }

  /** SLICE shrink case: when an axis has no room left for its centre, its
      two centre boundaries coincide and the axis spans exactly the
      preferred length from its start. */
  lemma SliceShrink(capInsets: Rect, originalSize: Size, offsets: Offsets,
                    preferred: Size, scale: real)
    requires VerticesDefined(capInsets, originalSize, offsets, preferred, scale, Slice)
    ensures var v := CalculateVertices(capInsets, originalSize, offsets, preferred, scale, Slice);
      && (TrimAxis(XInput(capInsets, originalSize, offsets, scale), preferred.width).sizable < 0.0 ==>
            v[1].x == v[2].x && v[3].x - v[0].x == preferred.width)
      && (TrimAxis(YInput(capInsets, originalSize, offsets, scale), preferred.height).sizable < 0.0 ==>
            v[1].y == v[2].y && v[3].y - v[0].y == preferred.height)
  {
  }

  /** A 100×100 source with 25-pixel insets all round (centre 50×50), drawn
      at 200×200: the corners stay 25 wide and the centre spans 25..175. */
  lemma StretchExample()
    ensures VerticesDefined(Rect(Vec2(25.0, 25.0), Size(50.0, 50.0)), Size(100.0, 100.0), NoOffsets,
                            Size(200.0, 200.0), 1.0, Slice)
    ensures CalculateVertices(Rect(Vec2(25.0, 25.0), Size(50.0, 50.0)), Size(100.0, 100.0), NoOffsets,
                              Size(200.0, 200.0), 1.0, Slice)
         == [Vec2(0.0, 0.0), Vec2(25.0, 25.0), Vec2(175.0, 175.0), Vec2(200.0, 200.0)]
  {
    SliceStretch(Rect(Vec2(25.0, 25.0), Size(50.0, 50.0)), Size(100.0, 100.0), NoOffsets,
                 Size(200.0, 200.0), 1.0);
  }

  /** The same source drawn at 40×40: the 25 + 25 corners are scaled by
      40 / 50 and the centre collapses at 20. */
  lemma ShrinkExample()
    ensures VerticesDefined(Rect(Vec2(25.0, 25.0), Size(50.0, 50.0)), Size(100.0, 100.0), NoOffsets,
                            Size(40.0, 40.0), 1.0, Slice)
    ensures CalculateVertices(Rect(Vec2(25.0, 25.0), Size(50.0, 50.0)), Size(100.0, 100.0), NoOffsets,
                              Size(40.0, 40.0), 1.0, Slice)
         == [Vec2(0.0, 0.0), Vec2(20.0, 20.0), Vec2(20.0, 20.0), Vec2(40.0, 40.0)]
  {
    var x := XInput(Rect(Vec2(25.0, 25.0), Size(50.0, 50.0)), Size(100.0, 100.0), NoOffsets, 1.0);
    assert x == AxisInput(25.0, 50.0, 25.0, 0.0, 0.0);
    var y := YInput(Rect(Vec2(25.0, 25.0), Size(50.0, 50.0)), Size(100.0, 100.0), NoOffsets, 1.0);
    assert y == AxisInput(25.0, 50.0, 25.0, 0.0, 0.0);
    assert TrimAxis(x, 40.0) == AxisLayout(0.0, 25.0, -10.0, 25.0);
  }
}

=== FILE: scale9_sprite.dfy ===
/** The sprite's configuration state: the frame it slices, its two views of
    the cap insets, its sizes, the dirty flag that schedules a rebuild, and
    the flip-aware scale accessors (UIScale9Sprite.cpp). */
module Scale9 {
  import opened Geometry
  import opened CapInsets
  import opened Mesh
  import opened SlicePipeline

  /** What the texture reports: its size in pixels, its content size in
      points, the cap insets parsed from a .9.png border for the frame in
      use (None when the texture carries no 9-patch information), and
      whether its alpha is premultiplied. */
  datatype Texture = Texture(pixelsWide: real, pixelsHigh: real, contentSize: Size,
                             ninePatchInsets: Option<Rect>, premultipliedAlpha: bool)

  /** The inner sprite, as far as the nine-slice code reads it. */
  datatype Image = Image(hasFrame: bool, texture: Option<Texture>,
                         displayedColor: Color3, displayedOpacity: Byte, opacityModifyRGB: bool)

  /** The sprite's fields that the nine-slice code reads or writes. `mesh` is
      the vertex and index arrays; None once they have been released. */
  datatype Scale9Sprite = Scale9Sprite(
    image: Option<Image>,
    spriteRect: Rect,
    rotated: bool,
    offset: Vec2,
    originalSize: Size,
    preferredSize: Size,
    contentSize: Size,
    capInsets: Rect,
    insets: EdgeInsets,
    isPatch9: bool,
    scale9Enabled: bool,
    dirty: bool,
    renderingType: RenderingType,
    flippedX: bool,
    flippedY: bool,
    nodeScaleX: real,
    nodeScaleY: real,
    mesh: Option<Triangles>)

  /** The constructor's defaults (UIScale9Sprite.cpp:39-55): no image, zero
      insets, nine-slicing on in SLICE mode, and the dirty flag clear. */
  const Fresh := Scale9Sprite(None, ZeroRect, false, ZeroVec, ZeroSize, ZeroSize, ZeroSize,
                              ZeroRect, NoInsets, false, true, false, Slice,
                              false, false, 1.0, 1.0, None)

  /** The sprite after an operation that reports success or failure. */
  datatype Updated = Updated(sprite: Scale9Sprite, ok: bool)

  /** setContentSize (UIScale9Sprite.cpp:531-541): an unchanged size is a
      no-op; any other size becomes the preferred size too and schedules a
      rebuild. */
  function SetContentSize(s: Scale9Sprite, size: Size): (r: Scale9Sprite)
    ensures r.contentSize == size
    ensures s.contentSize == size ==> r == s
    ensures s.contentSize != size ==>
      r == s.(contentSize := size, preferredSize := size, dirty := true)
  {
    if s.contentSize == size then s
    else s.(contentSize := size, preferredSize := size, dirty := true)
  }

  /** updateWithSprite's precondition: a zero rectangle is replaced by the
      texture's extent, which the source reads without a null check. */
  predicate UpdateDefined(sprite: Option<Image>, textureRect: Rect)
  {
    sprite.Some? && sprite.value.hasFrame && textureRect == ZeroRect ==> sprite.value.texture.Some?
  }

  /** Whether colours are premultiplied for a texture: only a texture with
      premultiplied alpha asks for it, and no texture does not
      (UIScale9Sprite.cpp:353-366). */
  predicate PremultipliesFor(texture: Option<Texture>)
  {
    texture.Some? && texture.value.premultipliedAlpha
  }

  /** The inner sprite after an update: a new sprite is adopted when there
      was none, otherwise the existing one takes over its frame and texture
      and keeps its colour (UIScale9Sprite.cpp:402-415). Taking over a
      different texture re-derives the premultiply flag from it, by the rule
      of updateBlendFunc; keeping the texture keeps the flag. */
  function AdoptImage(current: Option<Image>, sprite: Option<Image>): (r: Option<Image>)
    ensures r.Some? <==> sprite.Some?
    ensures sprite.Some? ==> r.value.hasFrame == sprite.value.hasFrame && r.value.texture == sprite.value.texture
    ensures current.Some? && sprite.Some? ==>
      && r.value.displayedColor == current.value.displayedColor
      && r.value.displayedOpacity == current.value.displayedOpacity
    ensures current.Some? && sprite.Some? && sprite.value.texture == current.value.texture ==>
      r.value.opacityModifyRGB == current.value.opacityModifyRGB
    ensures current.Some? && sprite.Some? && sprite.value.texture != current.value.texture ==>
      (r.value.opacityModifyRGB <==> PremultipliesFor(sprite.value.texture))
    ensures current.None? && sprite.Some? ==> r == sprite
    ensures sprite == current ==> r == current
  {
    match sprite
    case None => None
    case Some(sp) =>
      match current
      case None => Some(sp)
      case Some(im) =>
        var premultiply := if sp.texture == im.texture then im.opacityModifyRGB else PremultipliesFor(sp.texture);
        Some(im.(hasFrame := sp.hasFrame, texture := sp.texture, opacityModifyRGB := premultiply))
  }

  /** The frame rectangle and original size updateWithSprite stores: a zero
      rectangle becomes the whole texture, and a zero original size becomes
      the rectangle's size (UIScale9Sprite.cpp:422-437). */
  function DefaultRect(textureRect: Rect, image: Image): Rect
    requires textureRect == ZeroRect ==> image.texture.Some?
  {
    if textureRect == ZeroRect then Rect(ZeroVec, image.texture.value.contentSize) else textureRect
  }

  function DefaultSize(originalSize: Size, rect: Rect): Size
  {
    if originalSize == ZeroSize then rect.size else originalSize
  }

  /** The shared body of updateWithSprite (UIScale9Sprite.cpp:383-468),
      parameterised by the preferred size it stores before the final
      setContentSize; the two callers below differ only there. */
  function Reload(s: Scale9Sprite, sprite: Option<Image>, textureRect: Rect, rotated: bool,
                  offset: Vec2, originalSize: Size, capInsets: Rect, adjustPreferred: bool): Updated
    requires UpdateDefined(sprite, textureRect)
  {
    var cleared := s.(mesh := None);
    if sprite.Some? && !sprite.value.hasFrame then
      Updated(cleared, false)
    else
      var image := AdoptImage(s.image, sprite);
      if image.None? then
        Updated(cleared.(image := None), false)
      else
        var rect := DefaultRect(textureRect, image.value);
        var size := DefaultSize(originalSize, rect);
        var content := BorderlessSize(size, s.isPatch9);
        var stored := cleared.(image := image, spriteRect := rect, rotated := rotated,
                               originalSize := size,
                               preferredSize := if adjustPreferred then content else size,
                               offset := offset, capInsets := capInsets,
                               dirty := s.dirty || s.scale9Enabled);
        Updated(SetContentSize(stored, content), true)
  }

  /** A reload from a sprite with a frame replaces exactly the frame, the
      insets rectangle and the sizes, and schedules a rebuild when
      nine-slicing is on or the displayed size changes; nothing else moves. */
  lemma ReloadShape(s: Scale9Sprite, sprite: Option<Image>, textureRect: Rect, rotated: bool,
                    offset: Vec2, originalSize: Size, capInsets: Rect, adjustPreferred: bool)
    requires UpdateDefined(sprite, textureRect)
    requires sprite.Some? && sprite.value.hasFrame
    ensures var image := AdoptImage(s.image, sprite);
      var rect := DefaultRect(textureRect, image.value);
      var size := DefaultSize(originalSize, rect);
      var content := BorderlessSize(size, s.isPatch9);
      Reload(s, sprite, textureRect, rotated, offset, originalSize, capInsets, adjustPreferred)
      == Updated(s.(mesh := None, image := image, spriteRect := rect, rotated := rotated, offset := offset,
                    originalSize := size, capInsets := capInsets, contentSize := content,
                    preferredSize := if adjustPreferred || s.contentSize != content then content else size,
                    dirty := s.dirty || s.scale9Enabled || s.contentSize != content),
                 true)
  {
  }

  /** updateWithSprite with the preferred size set to the size the sprite
      will display, so that preferred and content size always agree. */
  function UpdateWithSprite(s: Scale9Sprite, sprite: Option<Image>, textureRect: Rect, rotated: bool,
                            offset: Vec2, originalSize: Size, capInsets: Rect): (r: Updated)
    requires UpdateDefined(sprite, textureRect)
    ensures r.sprite.mesh.None?
    ensures r.ok <==> sprite.Some? && sprite.value.hasFrame
    ensures sprite == s.image ==> r.sprite.image == s.image
    ensures !r.ok ==> r.sprite == s.(mesh := None, image := r.sprite.image)
    ensures r.ok ==> SizesAgree(r.sprite)
  {
    Reload(s, sprite, textureRect, rotated, offset, originalSize, capInsets, true)
  }

  /** A successful update stores the (defaulted) frame and the insets as
      given, displays the original size less any .9.png border, and
      schedules a rebuild when nine-slicing is on (UIScale9Sprite.cpp:422-468). */
  lemma UpdateWithSpriteStores(s: Scale9Sprite, sprite: Option<Image>, textureRect: Rect, rotated: bool,
                               offset: Vec2, originalSize: Size, capInsets: Rect)
    requires UpdateDefined(sprite, textureRect)
    ensures var r := UpdateWithSprite(s, sprite, textureRect, rotated, offset, originalSize, capInsets);
      r.ok ==>
      var rect := if textureRect == ZeroRect then Rect(ZeroVec, sprite.value.texture.value.contentSize) else textureRect;
      var size := if originalSize == ZeroSize then rect.size else originalSize;
      && r.sprite.image.Some? && r.sprite.image.value.texture == sprite.value.texture
      && r.sprite.spriteRect == rect && r.sprite.rotated == rotated && r.sprite.offset == offset
      && r.sprite.originalSize == size && r.sprite.capInsets == capInsets
      && r.sprite.contentSize == BorderlessSize(size, s.isPatch9)
      && r.sprite.preferredSize == r.sprite.contentSize
      && r.sprite.insets == s.insets && r.sprite.isPatch9 == s.isPatch9
      && r.sprite.renderingType == s.renderingType && r.sprite.scale9Enabled == s.scale9Enabled
      && (s.scale9Enabled ==> r.sprite.dirty)
  {
    if sprite.Some? && sprite.value.hasFrame {
      ReloadShape(s, sprite, textureRect, rotated, offset, originalSize, capInsets, true);
    }
  }

  /** updateWithSprite as written: the preferred size is the unadjusted
      original size, and the following setContentSize does not overwrite it
      when the content size is already the adjusted one. */
  function UpdateWithSpriteAsWritten(s: Scale9Sprite, sprite: Option<Image>, textureRect: Rect, rotated: bool,
                                     offset: Vec2, originalSize: Size, capInsets: Rect): (r: Updated)
    requires UpdateDefined(sprite, textureRect)
    ensures r.ok <==> sprite.Some? && sprite.value.hasFrame
    ensures r.ok ==>
      && r.sprite.contentSize == BorderlessSize(r.sprite.originalSize, s.isPatch9)
      && (s.contentSize == r.sprite.contentSize ==> r.sprite.preferredSize == r.sprite.originalSize)
      && (s.contentSize != r.sprite.contentSize ==> r.sprite.preferredSize == r.sprite.contentSize)
  {
    Reload(s, sprite, textureRect, rotated, offset, originalSize, capInsets, false)
  }

  /** The corrected reload departs from the code as written in the preferred
      size alone, and only for a successful reload of a .9.png source whose
      displayed size is already the border-less one; there the code keeps
      the full original size as the preferred size. */
  lemma CorrectedReloadDepartsOnlyThere(s: Scale9Sprite, sprite: Option<Image>, textureRect: Rect, rotated: bool,
                                        offset: Vec2, originalSize: Size, capInsets: Rect)
    requires UpdateDefined(sprite, textureRect)
    ensures var w := Reload(s, sprite, textureRect, rotated, offset, originalSize, capInsets, false);
      var c := Reload(s, sprite, textureRect, rotated, offset, originalSize, capInsets, true);
      && w.ok == c.ok
      && w.sprite == c.sprite.(preferredSize := w.sprite.preferredSize)
      && (w.sprite.preferredSize != c.sprite.preferredSize
          <==> w.ok && s.isPatch9 && s.contentSize == c.sprite.contentSize)
      && (w.sprite.preferredSize != c.sprite.preferredSize ==> w.sprite.preferredSize == w.sprite.originalSize)
  {
    if sprite.Some? && sprite.value.hasFrame {
      ReloadShape(s, sprite, textureRect, rotated, offset, originalSize, capInsets, true);
      ReloadShape(s, sprite, textureRect, rotated, offset, originalSize, capInsets, false);
      var image := AdoptImage(s.image, sprite);
      var rect := DefaultRect(textureRect, image.value);
      var size := DefaultSize(originalSize, rect);
      var content := BorderlessSize(size, s.isPatch9);
      var base := s.(mesh := None, image := image, spriteRect := rect, rotated := rotated, offset := offset,
                     originalSize := size, capInsets := capInsets, contentSize := content,
                     preferredSize := content, dirty := s.dirty || s.scale9Enabled || s.contentSize != content);
      assert content != size <==> s.isPatch9;
      assert Reload(s, sprite, textureRect, rotated, offset, originalSize, capInsets, true) == Updated(base, true);
      assert Reload(s, sprite, textureRect, rotated, offset, originalSize, capInsets, false)
          == Updated(base.(preferredSize := if s.contentSize != content then content else size), true);
    } else if sprite.Some? {
      assert Reload(s, sprite, textureRect, rotated, offset, originalSize, capInsets, true) == Updated(s.(mesh := None), false);
      assert Reload(s, sprite, textureRect, rotated, offset, originalSize, capInsets, false) == Updated(s.(mesh := None), false);
    } else {
      assert AdoptImage(s.image, sprite).None?;
      assert Reload(s, sprite, textureRect, rotated, offset, originalSize, capInsets, true)
          == Updated(s.(mesh := None, image := None), false);
      assert Reload(s, sprite, textureRect, rotated, offset, originalSize, capInsets, false)
          == Updated(s.(mesh := None, image := None), false);
    }
  }

  /** What reloading from the sprite's own inner sprite leaves alone: the
      image, the displayed size, the mode switches, the frame placement and
      the node's scale. */
  predicate KeepsSetup(s: Scale9Sprite, r: Scale9Sprite)
  {
    && r.image == s.image && r.contentSize == s.contentSize
    && r.renderingType == s.renderingType && r.scale9Enabled == s.scale9Enabled
    && r.isPatch9 == s.isPatch9 && r.offset == s.offset && r.rotated == s.rotated
    && r.flippedX == s.flippedX && r.flippedY == s.flippedY
    && r.nodeScaleX == s.nodeScaleX && r.nodeScaleY == s.nodeScaleY
  }

  /** The preferred size tracks the content size. */
  predicate SizesAgree(s: Scale9Sprite)
  {
    s.preferredSize == s.contentSize
  }

  /** The sprite can reload itself from its own inner sprite. */
  predicate CanReload(s: Scale9Sprite)
  {
    UpdateDefined(s.image, s.spriteRect)
  }

  /** Reloading from the sprite's own inner sprite and frame keeps the
      inner sprite, the mode switches and the node's scale, and leaves a
      sprite that can reload itself again. */
  lemma SelfReload(s: Scale9Sprite, offset: Vec2, capInsets: Rect)
    requires CanReload(s)
    ensures var u := UpdateWithSprite(s, s.image, s.spriteRect, s.rotated, offset, s.originalSize, capInsets).sprite;
      && CanReload(u) && u.image == s.image && u.rotated == s.rotated
      && u.renderingType == s.renderingType && u.scale9Enabled == s.scale9Enabled
      && u.isPatch9 == s.isPatch9 && u.flippedX == s.flippedX && u.flippedY == s.flippedY
      && u.nodeScaleX == s.nodeScaleX && u.nodeScaleY == s.nodeScaleY
      && (u.offset == s.offset || u.offset == offset)
  {
    if s.image.Some? && s.image.value.hasFrame {
      ReloadShape(s, s.image, s.spriteRect, s.rotated, offset, s.originalSize, capInsets, true);
    }
  }

  /** setCapInsets (UIScale9Sprite.cpp:627-641): reload with the new insets,
      derive the four scalar insets from them, and restore the content size. */
  function SetCapInsets(s: Scale9Sprite, capInsets: Rect): (r: Scale9Sprite)
    requires CanReload(s)
    ensures CanReload(r) && KeepsSetup(s, r) && r.mesh.None?
    ensures r.insets == RectToInsets(capInsets, r.originalSize)
    ensures SizesAgree(s) ==> SizesAgree(r)
  {
    var contentSize := s.contentSize;
    var u := UpdateWithSprite(s, s.image, s.spriteRect, s.rotated, s.offset, s.originalSize, capInsets).sprite;
    SelfReload(s, s.offset, capInsets);
    RectInsetsRoundTrip(capInsets, u.originalSize);
    SetContentSize(u.(insets := RectToInsets(capInsets, u.originalSize)), contentSize)
  }

  /** With a usable inner sprite, setCapInsets stores the rectangle, leaves
      the scalar insets describing exactly that rectangle, keeps the preferred
      size equal to the content size, and schedules a rebuild. */
  lemma SetCapInsetsStores(s: Scale9Sprite, capInsets: Rect)
    requires CanReload(s)
    ensures s.image.Some? && s.image.value.hasFrame ==>
      var r := SetCapInsets(s, capInsets);
      && r.capInsets == capInsets
      && InsetsToRect(r.insets, r.originalSize) == r.capInsets
      && r.preferredSize == r.contentSize
      && (s.originalSize != ZeroSize ==> r.originalSize == s.originalSize)
      && (s.scale9Enabled ==> r.dirty)
  {
    UpdateWithSpriteStores(s, s.image, s.spriteRect, s.rotated, s.offset, s.originalSize, capInsets);
    var u := UpdateWithSprite(s, s.image, s.spriteRect, s.rotated, s.offset, s.originalSize, capInsets).sprite;
    RectInsetsRoundTrip(capInsets, u.originalSize);
  }

  /** updateCapInset (UIScale9Sprite.cpp:595-603): rebuild the rectangle
      from the four scalar insets and apply it. */
  function UpdateCapInset(s: Scale9Sprite): (r: Scale9Sprite)
    requires CanReload(s)
    ensures CanReload(r) && KeepsSetup(s, r)
    ensures SizesAgree(s) ==> SizesAgree(r)
    ensures s.image.Some? && s.image.value.hasFrame && s.originalSize != ZeroSize ==>
      && r.insets == s.insets
      && r.originalSize == s.originalSize
      && r.capInsets == InsetsToRect(s.insets, s.originalSize)
      && r.preferredSize == r.contentSize
  {
    InsetsRectRoundTrip(s.insets, s.originalSize);
    SetCapInsetsStores(s, InsetsToRect(s.insets, s.originalSize));
    SetCapInsets(s, InsetsToRect(s.insets, s.originalSize))
  }

  /** setInsetLeft/Top/Right/Bottom (UIScale9Sprite.cpp:643-665): change one
      scalar inset and reapply; the other three come back unchanged. */
  function SetInsetLeft(s: Scale9Sprite, v: real): (r: Scale9Sprite)
    requires CanReload(s)
    ensures CanReload(r) && KeepsSetup(s, r)
    ensures SizesAgree(s) ==> SizesAgree(r)
    ensures s.image.Some? && s.image.value.hasFrame && s.originalSize != ZeroSize ==>
      && r.originalSize == s.originalSize && r.preferredSize == r.contentSize
      && r.insets == s.insets.(left := v)
  {
    UpdateCapInset(s.(insets := s.insets.(left := v)))
  }

  function SetInsetTop(s: Scale9Sprite, v: real): (r: Scale9Sprite)
    requires CanReload(s)
    ensures CanReload(r) && KeepsSetup(s, r)
    ensures SizesAgree(s) ==> SizesAgree(r)
    ensures s.image.Some? && s.image.value.hasFrame && s.originalSize != ZeroSize ==>
      && r.originalSize == s.originalSize && r.preferredSize == r.contentSize
      && r.insets == s.insets.(top := v)
  {
    UpdateCapInset(s.(insets := s.insets.(top := v)))
  }

  function SetInsetRight(s: Scale9Sprite, v: real): (r: Scale9Sprite)
    requires CanReload(s)
    ensures CanReload(r) && KeepsSetup(s, r)
    ensures SizesAgree(s) ==> SizesAgree(r)
    ensures s.image.Some? && s.image.value.hasFrame && s.originalSize != ZeroSize ==>
      && r.originalSize == s.originalSize && r.preferredSize == r.contentSize
      && r.insets == s.insets.(right := v)
  {
    UpdateCapInset(s.(insets := s.insets.(right := v)))
  }

  function SetInsetBottom(s: Scale9Sprite, v: real): (r: Scale9Sprite)
    requires CanReload(s)
    ensures CanReload(r) && KeepsSetup(s, r)
    ensures SizesAgree(s) ==> SizesAgree(r)
    ensures s.image.Some? && s.image.value.hasFrame && s.originalSize != ZeroSize ==>
      && r.originalSize == s.originalSize && r.preferredSize == r.contentSize
      && r.insets == s.insets.(bottom := v)
  {
    UpdateCapInset(s.(insets := s.insets.(bottom := v)))
  }

  /** configureSimpleModeRendering (UIScale9Sprite.cpp:471-477): zero the
      top, bottom, left and right insets in turn, so the cap rectangle
      becomes the whole original frame. */
  function ConfigureSimpleModeRendering(s: Scale9Sprite): (r: Scale9Sprite)
    requires CanReload(s)
    ensures CanReload(r) && KeepsSetup(s, r)
    ensures SizesAgree(s) ==> SizesAgree(r)
    ensures s.image.Some? && s.image.value.hasFrame && s.originalSize != ZeroSize ==>
      && r.insets == NoInsets
      && r.originalSize == s.originalSize
      && r.capInsets == Rect(ZeroVec, s.originalSize)
      && r.preferredSize == r.contentSize
  {
    SetInsetRight(SetInsetLeft(SetInsetBottom(SetInsetTop(s, 0.0), 0.0), 0.0), 0.0)
  }

  /** setRenderingType (UIScale9Sprite.cpp:1362-1370): a change of mode
      schedules a rebuild; setting the current mode does nothing. */
  function SetRenderingType(s: Scale9Sprite, t: RenderingType): (r: Scale9Sprite)
    ensures r.renderingType == t
    ensures s.renderingType == t ==> r == s
    ensures s.renderingType != t ==> r.dirty && r == s.(renderingType := t, dirty := true)
  {
    if s.renderingType == t then s else s.(renderingType := t, dirty := true)
  }

  /** setScale9Enabled (UIScale9Sprite.cpp:802-839): toggling releases the
      mesh; turning nine-slicing back on reloads the inner sprite, with the
      trim offset reset to zero. */
  function SetScale9Enabled(s: Scale9Sprite, enabled: bool): (r: Scale9Sprite)
    requires CanReload(s)
    ensures r.scale9Enabled == enabled
    ensures s.scale9Enabled == enabled ==> r == s
    ensures s.scale9Enabled && !enabled ==> r == s.(scale9Enabled := false, mesh := None)
    ensures !s.scale9Enabled && enabled && s.image.Some? && s.image.value.hasFrame ==>
      && r.offset == ZeroVec && r.dirty && r.mesh.None?
      && r.capInsets == s.capInsets && r.preferredSize == r.contentSize
    ensures !s.scale9Enabled && enabled && s.image.Some? && s.image.value.hasFrame ==>
      var rect := if s.spriteRect == ZeroRect then Rect(ZeroVec, s.image.value.texture.value.contentSize) else s.spriteRect;
      var size := if s.originalSize == ZeroSize then rect.size else s.originalSize;
      var content := BorderlessSize(size, s.isPatch9);
      r == s.(scale9Enabled := true, mesh := None, offset := ZeroVec, spriteRect := rect, originalSize := size,
              contentSize := content, preferredSize := content, dirty := true)
    ensures !s.scale9Enabled && enabled && !(s.image.Some? && s.image.value.hasFrame) ==>
      r == s.(scale9Enabled := true, mesh := None)
  {
    if s.scale9Enabled == enabled then s
    else
      var t := s.(scale9Enabled := enabled, mesh := None);
      if enabled && t.image.Some? && t.image.value.hasFrame then
        ReloadShape(t, t.image, t.spriteRect, t.rotated, ZeroVec, t.originalSize, t.capInsets, true);
        UpdateWithSprite(t, t.image, t.spriteRect, t.rotated, ZeroVec, t.originalSize, t.capInsets).sprite
      else if enabled && t.image.Some? then
        assert Reload(t, t.image, t.spriteRect, t.rotated, ZeroVec, t.originalSize, t.capInsets, true) == Updated(t, false);
        UpdateWithSprite(t, t.image, t.spriteRect, t.rotated, ZeroVec, t.originalSize, t.capInsets).sprite
      else
        t
  }

  /** A sprite frame as setSpriteFrame reads it. */
  datatype SpriteFrame = SpriteFrame(rect: Rect, rotated: bool, offset: Vec2, originalSize: Size)

  /** setSpriteFrame (UIScale9Sprite.cpp:605-620): reload from `sprite`, the
      sprite made over the frame's texture, then reset the scalar insets from
      the given rectangle. The content size is not restored. */
  function SetSpriteFrame(s: Scale9Sprite, sprite: Image, frame: SpriteFrame, capInsets: Rect): (r: Scale9Sprite)
    requires UpdateDefined(Some(sprite), frame.rect)
    ensures r.insets == RectToInsets(capInsets, r.originalSize)
    ensures sprite.hasFrame ==>
      && r.capInsets == capInsets
      && InsetsToRect(r.insets, r.originalSize) == capInsets
      && r.rotated == frame.rotated && r.offset == frame.offset
      && r.preferredSize == r.contentSize
      && (frame.originalSize != ZeroSize ==> r.originalSize == frame.originalSize)
  {
    var u := UpdateWithSprite(s, Some(sprite), frame.rect, frame.rotated, frame.offset,
                              frame.originalSize, capInsets).sprite;
    UpdateWithSpriteStores(s, Some(sprite), frame.rect, frame.rotated, frame.offset, frame.originalSize, capInsets);
    RectInsetsRoundTrip(capInsets, u.originalSize);
    u.(insets := RectToInsets(capInsets, u.originalSize))
  }

  /** init with an explicit frame (UIScale9Sprite.cpp:154-194): with no
      sprite, or a sprite without a texture, it reports success and changes
      nothing; otherwise it resolves the cap insets against the texture's
      9-patch information and reloads. */
  function Init(s: Scale9Sprite, sprite: Option<Image>, rect: Rect, rotated: bool, offset: Vec2,
                originalSize: Size, capInsets: Rect): (r: Updated)
    ensures sprite.None? || sprite.value.texture.None? ==> r == Updated(s, true)
    ensures sprite.Some? && sprite.value.texture.Some? ==>
      var parsed := sprite.value.texture.value.ninePatchInsets;
      && (r.ok <==> sprite.value.hasFrame)
      && r.sprite.isPatch9 == (s.isPatch9 || (parsed.Some? && parsed.value != ZeroRect))
      && (r.ok ==> r.sprite.capInsets == ResolveCapInsets(capInsets, parsed, s.isPatch9).capInsets)
  {
    match sprite
    case None => Updated(s, true)
    case Some(sp) =>
      match sp.texture
      case None => Updated(s, true)
      case Some(tex) =>
        var res := ResolveCapInsets(capInsets, tex.ninePatchInsets, s.isPatch9);
        UpdateWithSpriteStores(s.(isPatch9 := res.isPatch9), sprite, rect, rotated, offset, originalSize, res.capInsets);
        UpdateWithSprite(s.(isPatch9 := res.isPatch9), sprite, rect, rotated, offset, originalSize, res.capInsets)
  }

  /** The sprite has an inner sprite with a texture to slice. */
  predicate HasTexture(s: Scale9Sprite)
  {
    s.image.Some? && s.image.value.texture.Some?
  }

  /** What the rebuild reads from the sprite: the atlas size from its
      texture, its frame and sizes, and the inner sprite's colour. */
  function SliceInputOf(s: Scale9Sprite): SliceInput
    requires HasTexture(s)
  {
    var im := s.image.value;
    var tex := im.texture.value;
    SliceInput(Size(tex.pixelsWide, tex.pixelsHigh), s.spriteRect, s.rotated, s.offset, s.originalSize,
               s.capInsets, s.isPatch9, s.renderingType, s.preferredSize,
               im.displayedColor, im.displayedOpacity, im.opacityModifyRGB)
  }

  /** The state the rebuild slices: SIMPLE first zeroes the insets. */
  function Prepared(s: Scale9Sprite): (r: Scale9Sprite)
    requires HasTexture(s)
    ensures HasTexture(r) && KeepsSetup(s, r)
    ensures s.renderingType == Slice ==> r == s
    ensures s.renderingType == Simple && s.image.value.hasFrame && s.originalSize != ZeroSize ==>
      && r.insets == NoInsets && r.capInsets == Rect(ZeroVec, s.originalSize)
      && r.originalSize == s.originalSize
  {
    if s.renderingType == Simple then ConfigureSimpleModeRendering(s) else s
  }

  /** The rebuild's arithmetic is defined for this sprite at this content
      scale factor (see MeshDefined). */
  predicate RebuildDefined(s: Scale9Sprite, scale: real)
  {
    s.scale9Enabled && HasTexture(s) ==> MeshDefined(SliceInputOf(Prepared(s)), scale)
  }

  /** createSlicedSprites (UIScale9Sprite.cpp:479-529): with nine-slicing on
      and a texture, store the mesh of the (prepared) configuration;
      otherwise do nothing. */
  function CreateSlicedSprites(s: Scale9Sprite, scale: real): (r: Scale9Sprite)
    requires RebuildDefined(s, scale)
    ensures !(s.scale9Enabled && HasTexture(s)) ==> r == s
    ensures s.scale9Enabled && HasTexture(s) ==>
      && HasTexture(r) && KeepsSetup(s, r) && MeshDefined(SliceInputOf(r), scale)
      && r.mesh == Some(BuildMesh(SliceInputOf(r), scale))
  {
    if s.scale9Enabled && HasTexture(s) then
      var p := Prepared(s);
      var r := p.(mesh := Some(BuildMesh(SliceInputOf(p), scale)));
      assert SliceInputOf(r) == SliceInputOf(p);
      r
    else
      s
  }

  /** In SLICE mode the rebuild touches nothing but the mesh. */
  lemma SliceRebuildOnlyTouchesMesh(s: Scale9Sprite, scale: real)
    requires RebuildDefined(s, scale) && s.renderingType == Slice
    ensures var r := CreateSlicedSprites(s, scale); r == s.(mesh := r.mesh)
  {
  }

  /** The rebuild step of visit (UIScale9Sprite.cpp:722-725): a dirty sprite
      with nine-slicing on is rebuilt and the flag cleared; the mesh then
      matches the sprite's own configuration. */
  function Visit(s: Scale9Sprite, scale: real): (r: Scale9Sprite)
    requires s.scale9Enabled && s.dirty ==> RebuildDefined(s, scale)
    ensures s.scale9Enabled ==> !r.dirty
    ensures !(s.scale9Enabled && s.dirty) ==> r == s
    ensures s.scale9Enabled && s.dirty && HasTexture(s) ==>
      && HasTexture(r) && MeshDefined(SliceInputOf(r), scale)
      && r.mesh == Some(BuildMesh(SliceInputOf(r), scale))
  {
    if s.scale9Enabled && s.dirty then CreateSlicedSprites(s, scale).(dirty := false) else s
  }

  /** A second visit with nothing changed in between does no work. */
  lemma VisitIdempotent(s: Scale9Sprite, scale: real)
    requires s.scale9Enabled && s.dirty ==> RebuildDefined(s, scale)
    ensures Visit(Visit(s, scale), scale) == Visit(s, scale)
  {
  }

  /** A freshly constructed sprite has nothing to slice: visiting or
      rebuilding it changes nothing (UIScale9Sprite.cpp:39-55). */
  lemma FreshIsIdle(scale: real)
    ensures !Fresh.dirty && Fresh.scale9Enabled && Fresh.renderingType == Slice
    ensures Visit(Fresh, scale) == Fresh
    ensures CreateSlicedSprites(Fresh, scale) == Fresh
  {
  }

  /** The visible scale: the node's own scale, negated while flipped
      (UIScale9Sprite.cpp:993-1011). */
  function GetScaleX(s: Scale9Sprite): real
  {
    if s.flippedX then -s.nodeScaleX else s.nodeScaleX
  }

  function GetScaleY(s: Scale9Sprite): real
  {
    if s.flippedY then -s.nodeScaleY else s.nodeScaleY
  }

  /** The getter and the setter are inverse: storing the visible scale
      changes nothing, and toggling the flag alone negates the visible
      scale, which is why setFlippedX re-stores it. */
  lemma ScaleXRoundTrip(s: Scale9Sprite)
    ensures SetScaleX(s, GetScaleX(s)) == s
    ensures GetScaleX(s.(flippedX := !s.flippedX)) == -GetScaleX(s)
  {
  }

  lemma ScaleYRoundTrip(s: Scale9Sprite)
    ensures SetScaleY(s, GetScaleY(s)) == s
    ensures GetScaleY(s.(flippedY := !s.flippedY)) == -GetScaleY(s)
  {
  }

  /** setScaleX/setScaleY (UIScale9Sprite.cpp:965-979): store the scale,
      negated while flipped, so that the getter reads it back. */
  function SetScaleX(s: Scale9Sprite, v: real): (r: Scale9Sprite)
    ensures GetScaleX(r) == v
    ensures r == s.(nodeScaleX := r.nodeScaleX)
    ensures r.flippedX ==> r.nodeScaleX == -v
  {
    s.(nodeScaleX := if s.flippedX then -v else v)
  }

  function SetScaleY(s: Scale9Sprite, v: real): (r: Scale9Sprite)
    ensures GetScaleY(r) == v
    ensures r == s.(nodeScaleY := r.nodeScaleY)
    ensures r.flippedY ==> r.nodeScaleY == -v
  {
    s.(nodeScaleY := if s.flippedY then -v else v)
  }

  /** setFlippedX/setFlippedY (UIScale9Sprite.cpp:940-953): flipping keeps
      the visible scale and mirrors the node's own scale when the flag changes. */
  function SetFlippedX(s: Scale9Sprite, flipped: bool): (r: Scale9Sprite)
    ensures r.flippedX == flipped && GetScaleX(r) == GetScaleX(s)
    ensures r.nodeScaleX == (if flipped == s.flippedX then s.nodeScaleX else -s.nodeScaleX)
    ensures r == s.(flippedX := flipped, nodeScaleX := r.nodeScaleX)
  {
    SetScaleX(s.(flippedX := flipped), GetScaleX(s))
  }

  function SetFlippedY(s: Scale9Sprite, flipped: bool): (r: Scale9Sprite)
    ensures r.flippedY == flipped && GetScaleY(r) == GetScaleY(s)
    ensures r.nodeScaleY == (if flipped == s.flippedY then s.nodeScaleY else -s.nodeScaleY)
    ensures r == s.(flippedY := flipped, nodeScaleY := r.nodeScaleY)
  {
    SetScaleY(s.(flippedY := flipped), GetScaleY(s))
  }

  /** setScale with one or two factors (UIScale9Sprite.cpp:981-991). */
  function SetScale(s: Scale9Sprite, scaleX: real, scaleY: real): (r: Scale9Sprite)
    ensures GetScaleX(r) == scaleX && GetScaleY(r) == scaleY
    ensures r == s.(nodeScaleX := r.nodeScaleX, nodeScaleY := r.nodeScaleY)
  {
    SetScaleY(SetScaleX(s, scaleX), scaleY)
  }

  /** getScale (UIScale9Sprite.cpp:1013-1018) asserts the two axes agree. */
  function GetScale(s: Scale9Sprite): (r: real)
    requires GetScaleX(s) == GetScaleY(s)
    ensures r == GetScaleX(s) && r == GetScaleY(s)
  {
    GetScaleX(s)
  }

  /** Flipping twice restores the sprite. */
  lemma FlipTwiceRestores(s: Scale9Sprite, flipped: bool)
    ensures SetFlippedX(SetFlippedX(s, flipped), s.flippedX) == s
    ensures SetFlippedY(SetFlippedY(s, flipped), s.flippedY) == s
  {
  }

  /** setPreferredSize (UIScale9Sprite.cpp:622-625) forwards to
      setContentSize; while the two sizes agree it sets both. */
  function SetPreferredSize(s: Scale9Sprite, size: Size): (r: Scale9Sprite)
    ensures r.contentSize == size
    ensures SizesAgree(s) ==> SizesAgree(r) && r.preferredSize == size
    ensures r.contentSize != s.contentSize ==> r.dirty
    ensures s.contentSize == size ==> r == s
    ensures s.contentSize != size ==> r == s.(contentSize := size, preferredSize := size, dirty := true)
  {
    SetContentSize(s, size)
  }

  /** setCapInsets over the as-written reload. */
  function SetCapInsetsAsWritten(s: Scale9Sprite, capInsets: Rect): (r: Scale9Sprite)
    requires CanReload(s)
    ensures r.contentSize == s.contentSize
  {
    var contentSize := s.contentSize;
    var u := UpdateWithSpriteAsWritten(s, s.image, s.spriteRect, s.rotated, s.offset, s.originalSize, capInsets).sprite;
    SetContentSize(u.(insets := RectToInsets(capInsets, u.originalSize)), contentSize)
  }

  /** As written, re-applying cap insets to a .9.png sprite at its default
      size (its original size less the border) leaves the preferred size at
      the full original size, two points larger than the displayed size, and
      the next rebuild lays the mesh out at that larger size. */
  lemma PreferredSizeDriftsAsWritten(s: Scale9Sprite, capInsets: Rect)
    requires CanReload(s) && s.image.Some? && s.image.value.hasFrame
    requires s.isPatch9 && s.originalSize != ZeroSize
    requires s.contentSize == BorderlessSize(s.originalSize, true)
    ensures var r := SetCapInsetsAsWritten(s, capInsets);
      && r.preferredSize == s.originalSize
      && r.preferredSize != r.contentSize
  {
    var u := UpdateWithSpriteAsWritten(s, s.image, s.spriteRect, s.rotated, s.offset, s.originalSize, capInsets);
    assert u.sprite.originalSize == s.originalSize;
  }

  /** The same call with the corrected reload keeps the two sizes equal. */
  lemma PreferredSizeKeptCorrected(s: Scale9Sprite, capInsets: Rect)
    requires CanReload(s) && s.image.Some? && s.image.value.hasFrame
    requires s.isPatch9 && s.originalSize != ZeroSize
    requires s.contentSize == BorderlessSize(s.originalSize, true)
    ensures var r := SetCapInsets(s, capInsets);
      && r.preferredSize == r.contentSize
      && r.preferredSize == BorderlessSize(s.originalSize, true)
  {
    SetCapInsetsStores(s, capInsets);
  }
}

=== FILE: slice_pipeline.dfy ===
/** The geometry half of createSlicedSprites (UIScale9Sprite.cpp:479-529):
    convert the stored frame to pixels, derive the trim offsets, strip the
    .9.png border, default the insets, then build UVs, positions and the mesh. */
module SlicePipeline {
  import opened Geometry
  import opened CapInsets
  import opened TextureCoords
  import opened Positions
  import opened Mesh

  /** Everything the rebuild reads. Frame and inset values are in points, as
      the sprite stores them; the atlas size is in pixels. */
  datatype SliceInput = SliceInput(
    atlas: Size,
    spriteRect: Rect,
    rotated: bool,
    offset: Vec2,
    originalSize: Size,
    capInsets: Rect,
    isPatch9: bool,
    renderingType: RenderingType,
    preferredSize: Size,
    color: Color3,
    opacity: Byte,
    premultiply: bool)

  /** The frame rectangle in atlas pixels. */
  function TextureRect(inp: SliceInput, scale: real): Rect
  {
    RectToPixels(inp.spriteRect, scale)
  }

  /** Trim offsets, from the full (bordered) original (UIScale9Sprite.cpp:502-506). */
  function PixelOffsets(inp: SliceInput, scale: real): Offsets
  {
    TrimOffsets(VecToPixels(inp.offset, scale), SizeToPixels(inp.originalSize, scale),
                TextureRect(inp, scale).size)
  }

  /** The original size in pixels without the .9.png border (UIScale9Sprite.cpp:508-512). */
  function SourceSize(inp: SliceInput, scale: real): Size
  {
    BorderlessSize(SizeToPixels(inp.originalSize, scale), inp.isPatch9)
  }

  /** The cap insets in pixels, defaulted to thirds (UIScale9Sprite.cpp:515-519). */
  function PixelCapInsets(inp: SliceInput, scale: real): Rect
  {
    EffectiveCapInsets(RectToPixels(inp.capInsets, scale), SourceSize(inp, scale))
  }

  /** The rebuild divides by the content scale factor, the atlas size and,
      where the source uses them, the quotients calculateVertices forms. */
  predicate MeshDefined(inp: SliceInput, scale: real)
  {
    && scale > 0.0
    && inp.atlas.width > 0.0 && inp.atlas.height > 0.0
    && VerticesDefined(PixelCapInsets(inp, scale), SourceSize(inp, scale), PixelOffsets(inp, scale),
                       inp.preferredSize, scale, inp.renderingType)
  }

  function SliceUV(inp: SliceInput, scale: real): seq<Vec2>
    requires MeshDefined(inp, scale)
  {
    CalculateUV(inp.atlas, PixelCapInsets(inp, scale), SourceSize(inp, scale), PixelOffsets(inp, scale),
                TextureRect(inp, scale), inp.rotated, inp.isPatch9, inp.renderingType)
  }

  function SliceVertices(inp: SliceInput, scale: real): seq<Vec2>
    requires MeshDefined(inp, scale)
  {
    CalculateVertices(PixelCapInsets(inp, scale), SourceSize(inp, scale), PixelOffsets(inp, scale),
                      inp.preferredSize, scale, inp.renderingType)
  }

  /** The rebuilt mesh (UIScale9Sprite.cpp:521-523): a g×g grid crossing the
      position and UV boundaries, every index naming one of its vertices. */
  function BuildMesh(inp: SliceInput, scale: real): (tri: Triangles)
    requires MeshDefined(inp, scale)
    ensures |tri.verts| == GridSize(inp.renderingType) * GridSize(inp.renderingType)
    ensures |tri.indices| == 6 * (GridSize(inp.renderingType) - 1) * (GridSize(inp.renderingType) - 1)
    ensures forall n :: 0 <= n < |tri.indices| ==> tri.indices[n] < |tri.verts|
    ensures forall n :: 0 <= n < |tri.verts| ==> tri.verts[n].color.a == inp.opacity
  {
    CalculateTriangles(SliceUV(inp, scale), SliceVertices(inp, scale), inp.rotated, inp.renderingType,
                       inp.color, inp.opacity, inp.premultiply)
  }

  /** The offsets the rebuild derives always account for the whole frame:
      trimmed gaps plus the sampled rectangle make up the border-less original. */
  lemma OffsetsAreTrimConsistent(inp: SliceInput, scale: real)
    ensures TrimConsistent(PixelOffsets(inp, scale), SourceSize(inp, scale), TextureRect(inp, scale), inp.isPatch9)
  {
  }

  /** UV boundaries of a rebuild run monotonically whenever the insets leave
      a centre that is not negative along both axes. */
  lemma MeshUVOrdered(inp: SliceInput, scale: real)
    requires MeshDefined(inp, scale)
    requires ColumnSpans(PixelCapInsets(inp, scale), SourceSize(inp, scale), PixelOffsets(inp, scale), inp.rotated).center >= 0.0
    requires RowSpans(PixelCapInsets(inp, scale), SourceSize(inp, scale), PixelOffsets(inp, scale), inp.rotated).center >= 0.0
    ensures var uv := SliceUV(inp, scale);
      forall k :: 0 < k < |uv| ==>
        && uv[k - 1].x <= uv[k].x
        && (if inp.rotated then uv[k - 1].y <= uv[k].y else uv[k - 1].y >= uv[k].y)
  {
    OffsetsAreTrimConsistent(inp, scale);
    UVOrdered(inp.atlas, PixelCapInsets(inp, scale), SourceSize(inp, scale), PixelOffsets(inp, scale),
              TextureRect(inp, scale), inp.rotated, inp.isPatch9, inp.renderingType);
  }

  /** SIMPLE at the original size reproduces the frame: the quad starts at
      the left and bottom trim and is exactly as large as the frame rectangle. */
  lemma SimpleAtOriginalSizeIsFrame(inp: SliceInput, scale: real)
    requires MeshDefined(inp, scale)
    requires inp.renderingType == Simple && !inp.isPatch9
    requires inp.preferredSize == inp.originalSize
    ensures var v := SliceVertices(inp, scale);
      && v[1].x - v[0].x == inp.spriteRect.size.width
      && v[1].y - v[0].y == inp.spriteRect.size.height
  {
    var o := PixelOffsets(inp, scale);
    TrimsInPoints(inp, scale);
    SimpleQuadAtNaturalSize(PixelCapInsets(inp, scale), SourceSize(inp, scale), o, inp.preferredSize, scale);
  }

  /** The derived trims, back in points, add up to what the frame lost. */
  lemma TrimsInPoints(inp: SliceInput, scale: real)
    requires scale > 0.0
    ensures var o := PixelOffsets(inp, scale);
      && o.left / scale + o.right / scale == inp.originalSize.width - inp.spriteRect.size.width
      && o.top / scale + o.bottom / scale == inp.originalSize.height - inp.spriteRect.size.height
  {
    var o := PixelOffsets(inp, scale);
    var orig := SizeToPixels(inp.originalSize, scale);
    var frame := SizeToPixels(inp.spriteRect.size, scale);
    assert o == TrimOffsets(VecToPixels(inp.offset, scale), orig, frame);
    var gw := inp.originalSize.width - inp.spriteRect.size.width;
    var gh := inp.originalSize.height - inp.spriteRect.size.height;
    assert orig.width - frame.width == gw * scale;
    assert orig.height - frame.height == gh * scale;
    TrimInPoints(o.left, o.right, gw, scale);
    TrimInPoints(o.top, o.bottom, gh, scale);
  }

  /** Two pixel trims summing to g pixels-per-point units are g points. */
  lemma TrimInPoints(lead: real, trail: real, g: real, s: real)
    requires s > 0.0 && lead + trail == g * s
    ensures lead / s + trail / s == g
  {
    assert lead / s + trail / s == (lead + trail) / s;
  }

  /** A frame that fills its atlas untrimmed and unrotated, with no insets. */
  predicate WholeAtlasFrame(inp: SliceInput, scale: real)
  {
    && scale > 0.0
    && inp.originalSize.width > 0.0 && inp.originalSize.height > 0.0
    && inp.atlas == SizeToPixels(inp.originalSize, scale)
    && inp.spriteRect == Rect(ZeroVec, inp.originalSize)
    && inp.offset == ZeroVec
    && !inp.rotated && !inp.isPatch9
  }

  /** Such a frame drawn SIMPLE at any preferred size is one quad from the
      origin to the preferred size, sampling the whole texture, with texture
      v running opposite to content y. */
  lemma WholeAtlasSimpleQuad(inp: SliceInput, scale: real)
    requires WholeAtlasFrame(inp, scale) && inp.renderingType == Simple
    ensures MeshDefined(inp, scale)
    ensures var tri := BuildMesh(inp, scale);
      && tri.verts[0].position == Vec2(0.0, 0.0) && tri.verts[0].texCoord == Vec2(0.0, 1.0)
      && tri.verts[3].position == Vec2(inp.preferredSize.width, inp.preferredSize.height)
      && tri.verts[3].texCoord == Vec2(1.0, 0.0)
      && tri.indices == [0, 1, 2, 3, 2, 1]
  {
    WholeAtlasBoundaries(inp, scale);
    SimpleTriangles(SliceUV(inp, scale), SliceVertices(inp, scale), false, inp.color, inp.opacity, inp.premultiply);
  }

  lemma WholeAtlasBoundaries(inp: SliceInput, scale: real)
    requires WholeAtlasFrame(inp, scale) && inp.renderingType == Simple
    ensures MeshDefined(inp, scale)
    ensures SliceUV(inp, scale) == [Vec2(0.0, 1.0), Vec2(1.0, 0.0)]
    ensures SliceVertices(inp, scale) == [Vec2(0.0, 0.0), Vec2(inp.preferredSize.width, inp.preferredSize.height)]
  {
    assert PixelOffsets(inp, scale) == NoOffsets;
    var uv := SliceUV(inp, scale);
    var rect := SampledRect(TextureRect(inp, scale), false);
    assert rect == Rect(ZeroVec, inp.atlas);
    UnitRatio(inp.atlas.width);
    UnitRatio(inp.atlas.height);
    assert uv[0].x == 0.0 / inp.atlas.width && uv[1].x == inp.atlas.width / inp.atlas.width;
    assert uv[0].y == inp.atlas.height / inp.atlas.height && uv[1].y == 0.0 / inp.atlas.height;
  }

  lemma UnitRatio(x: real)
    requires x > 0.0
    ensures x / x == 1.0 && 0.0 / x == 0.0
  {
  }
}

=== FILE: texture_coords.dfy ===
/** calculateUV: the texture-coordinate boundaries of the nine-slice grid,
    normalised by the atlas size (UIScale9Sprite.cpp:1032-1139). */
module TextureCoords {
  import opened Geometry

  /** The three spans cut along one axis: leading edge, centre, trailing edge. */
  datatype Spans = Spans(lead: real, center: real, trail: real)

  function Total(s: Spans): real
  {
    s.lead + s.center + s.trail
  }

  function Reverse(s: Spans): Spans
  {
    Spans(s.trail, s.center, s.lead)
  }

  /** The spans an inset rectangle cuts along one axis of the trimmed frame:
      the inset less the leading trim, the centre, and what is left of the
      original extent less the trailing trim. */
  function RawSpans(inset: real, center: real, extent: real, trimLead: real, trimTrail: real): (s: Spans)
    ensures s.lead == inset - trimLead && s.center == center
    ensures Total(s) == extent - trimLead - trimTrail
  {
    Spans(inset - trimLead, center, extent - (inset + center) - trimTrail)
  }

  /** A negative edge is folded into the centre and becomes zero
      (UIScale9Sprite.cpp:1065-1085); each edge is treated on its own. */
  function Clamp(s: Spans): (r: Spans)
    ensures r.lead >= 0.0 && r.trail >= 0.0
    ensures Total(r) == Total(s)
    ensures s.lead >= 0.0 ==> r.lead == s.lead
    ensures s.trail >= 0.0 ==> r.trail == s.trail
    ensures s.lead < 0.0 ==> r.lead == 0.0
    ensures s.trail < 0.0 ==> r.trail == 0.0
  {
    var afterLead := if s.lead < 0.0 then Spans(0.0, s.center + s.lead, s.trail) else s;
    if afterLead.trail < 0.0 then
      Spans(afterLead.lead, afterLead.center + afterLead.trail, 0.0)
    else
      afterLead
  }

  /** Left, centre and right widths in source pixels
      (UIScale9Sprite.cpp:1044-1063). A rotated frame lies on its side in the
      atlas, so its columns come from the inset rectangle's vertical extent,
      and the top inset becomes the right-hand column. */
  function ColumnSpans(capInsets: Rect, originalSize: Size, offsets: Offsets, rotated: bool): (r: Spans)
    ensures r.lead >= 0.0 && r.trail >= 0.0
    ensures !rotated ==> Total(r) == originalSize.width - offsets.left - offsets.right
    ensures rotated ==> Total(r) == originalSize.height - offsets.top - offsets.bottom
    ensures !rotated && capInsets.origin.x >= offsets.left ==> r.lead == capInsets.origin.x - offsets.left
    ensures rotated && capInsets.origin.y >= offsets.top ==> r.trail == capInsets.origin.y - offsets.top
  {
    if rotated then
      Clamp(Reverse(RawSpans(capInsets.origin.y, capInsets.size.height, originalSize.height,
                             offsets.top, offsets.bottom)))
    else
      Clamp(RawSpans(capInsets.origin.x, capInsets.size.width, originalSize.width,
                     offsets.left, offsets.right))
  }

  /** Top, centre and bottom heights in source pixels; a rotated frame reads
      them from the inset rectangle's horizontal extent. */
  function RowSpans(capInsets: Rect, originalSize: Size, offsets: Offsets, rotated: bool): (r: Spans)
    ensures r.lead >= 0.0 && r.trail >= 0.0
    ensures !rotated ==> Total(r) == originalSize.height - offsets.top - offsets.bottom
    ensures rotated ==> Total(r) == originalSize.width - offsets.left - offsets.right
    ensures !rotated && capInsets.origin.y >= offsets.top ==> r.lead == capInsets.origin.y - offsets.top
    ensures rotated && capInsets.origin.x >= offsets.left ==> r.lead == capInsets.origin.x - offsets.left
  {
    if rotated then
      Clamp(RawSpans(capInsets.origin.x, capInsets.size.width, originalSize.width,
                     offsets.left, offsets.right))
    else
      Clamp(RawSpans(capInsets.origin.y, capInsets.size.height, originalSize.height,
                     offsets.top, offsets.bottom))
  }

  /** Rotation swaps the roles of the two axes: the columns of a rotated
      frame are the rows of the same frame unrotated, read in reverse, and
      its rows are the unrotated columns. */
  lemma RotationSwapsAxes(capInsets: Rect, originalSize: Size, offsets: Offsets)
    ensures ColumnSpans(capInsets, originalSize, offsets, true)
         == Reverse(RowSpans(capInsets, originalSize, offsets, false))
    ensures RowSpans(capInsets, originalSize, offsets, true)
         == ColumnSpans(capInsets, originalSize, offsets, false)
  {
  }

  /** The empirical sampling bias for .9.png sources (UIScale9Sprite.cpp:1092). */
  const NinePatchBias: real := 1.3

  /** The atlas rectangle actually sampled: a .9.png frame skips its
      one-pixel border (UIScale9Sprite.cpp:1087-1097). */
  function SampledRect(textureRect: Rect, isPatch9: bool): Rect
  {
    if isPatch9 then
      Rect(Vec2(textureRect.origin.x + NinePatchBias, textureRect.origin.y + NinePatchBias),
           Size(textureRect.size.width - 2.0, textureRect.size.height - 2.0))
    else
      textureRect
  }

  /** For a .9.png frame at least two pixels wide and high, the sampled
      rectangle lies inside the frame rectangle, clear of the whole leading
      border pixel on each axis, and is the border-less size. */
  lemma NinePatchSamplesInsideFrame(textureRect: Rect)
    requires textureRect.size.width >= 2.0 && textureRect.size.height >= 2.0
    ensures var rect := SampledRect(textureRect, true);
      && textureRect.origin.x + 1.0 < rect.origin.x
      && rect.origin.x + rect.size.width < textureRect.origin.x + textureRect.size.width
      && textureRect.origin.y + 1.0 < rect.origin.y
      && rect.origin.y + rect.size.height < textureRect.origin.y + textureRect.size.height
      && rect.size.width >= 0.0 && rect.size.height >= 0.0
      && rect.size.width + 2.0 == textureRect.size.width
      && rect.size.height + 2.0 == textureRect.size.height
  {
  }

  /** How far the sampled rectangle extends along the atlas's u and v axes;
      a rotated frame's width lies along v. */
  function ExtentU(rect: Rect, rotated: bool): real
  {
    if rotated then rect.size.height else rect.size.width
  }

  function ExtentV(rect: Rect, rotated: bool): real
  {
    if rotated then rect.size.width else rect.size.height
  }

  /** The texture-coordinate boundaries (UIScale9Sprite.cpp:1099-1136).
      Entry k pairs the k-th u boundary with a v boundary; texture v runs
      against content y, so an upright frame pairs u0 with its last v
      boundary, while a rotated frame's rows already run that way. */
  function CalculateUV(atlas: Size, capInsets: Rect, originalSize: Size, offsets: Offsets,
                       textureRect: Rect, rotated: bool, isPatch9: bool, t: RenderingType): (uv: seq<Vec2>)
    requires atlas.width > 0.0 && atlas.height > 0.0
    ensures |uv| == GridSize(t)
    ensures var rect := SampledRect(textureRect, isPatch9);
      && uv[0].x == rect.origin.x / atlas.width
      && uv[|uv| - 1].x == (rect.origin.x + ExtentU(rect, rotated)) / atlas.width
      && (rotated ==>
            uv[0].y == rect.origin.y / atlas.height
            && uv[|uv| - 1].y == (rect.origin.y + rect.size.width) / atlas.height)
      && (!rotated ==>
            uv[0].y == (rect.origin.y + rect.size.height) / atlas.height
            && uv[|uv| - 1].y == rect.origin.y / atlas.height)
    ensures t == Slice ==>
      var rect := SampledRect(textureRect, isPatch9);
      var cols := ColumnSpans(capInsets, originalSize, offsets, rotated);
      var rows := RowSpans(capInsets, originalSize, offsets, rotated);
      && uv[1].x == (cols.lead + rect.origin.x) / atlas.width
      && uv[2].x == (cols.lead + cols.center + rect.origin.x) / atlas.width
      && (if rotated then uv[1].y else uv[2].y) == (rows.lead + rect.origin.y) / atlas.height
      && (if rotated then uv[2].y else uv[1].y) == (rows.lead + rows.center + rect.origin.y) / atlas.height
  {
    var rect := SampledRect(textureRect, isPatch9);
    var cols := ColumnSpans(capInsets, originalSize, offsets, rotated);
    var rows := RowSpans(capInsets, originalSize, offsets, rotated);
    var u0 := rect.origin.x / atlas.width;
    var u1 := (cols.lead + rect.origin.x) / atlas.width;
    var u2 := (cols.lead + cols.center + rect.origin.x) / atlas.width;
    var u3 := (rect.origin.x + ExtentU(rect, rotated)) / atlas.width;
    var near := rect.origin.y / atlas.height;
    var inner1 := (rows.lead + rect.origin.y) / atlas.height;
    var inner2 := (rows.lead + rows.center + rect.origin.y) / atlas.height;
    var far := (rect.origin.y + ExtentV(rect, rotated)) / atlas.height;
    // an upright frame numbers v from its near edge, a rotated one from its far edge
    var v0 := if rotated then far else near;
    var v1 := if rotated then inner2 else inner1;
    var v2 := if rotated then inner1 else inner2;
    var v3 := if rotated then near else far;
    if t == Simple then
      [Vec2(u0, v3), Vec2(u3, v0)]
    else
      [Vec2(u0, v3), Vec2(u1, v2), Vec2(u2, v1), Vec2(u3, v0)]
  }

  /** The offsets are the trim offsets of this frame: together with the
      sampled extent they account for the whole (border-less) original. */
  predicate TrimConsistent(offsets: Offsets, originalSize: Size, textureRect: Rect, isPatch9: bool)
  {
    var border := if isPatch9 then 2.0 else 0.0;
    && offsets.left + offsets.right == originalSize.width + border - textureRect.size.width
    && offsets.top + offsets.bottom == originalSize.height + border - textureRect.size.height
  }

  /** With trim offsets, the three columns tile exactly the sampled extent
      along u, and the three rows the extent along v, whatever the insets. */
  lemma SpansTileSampledRect(capInsets: Rect, originalSize: Size, offsets: Offsets,
                             textureRect: Rect, rotated: bool, isPatch9: bool)
    requires TrimConsistent(offsets, originalSize, textureRect, isPatch9)
    ensures var rect := SampledRect(textureRect, isPatch9);
      && Total(ColumnSpans(capInsets, originalSize, offsets, rotated)) == ExtentU(rect, rotated)
      && Total(RowSpans(capInsets, originalSize, offsets, rotated)) == ExtentV(rect, rotated)
  {
  }

  lemma DivideMonotone(a: real, b: real, d: real)
    requires a <= b && d > 0.0
    ensures a / d <= b / d
  {
    assert b / d - a / d == (b - a) / d;
  }

  /** When the clamped centres are not negative (the edge spans fit inside
      the frame), the u boundaries never decrease, and the v boundaries run
      monotonically: downwards for an upright frame, upwards for a rotated one. */
  lemma UVOrdered(atlas: Size, capInsets: Rect, originalSize: Size, offsets: Offsets,
                  textureRect: Rect, rotated: bool, isPatch9: bool, t: RenderingType)
    requires atlas.width > 0.0 && atlas.height > 0.0
    requires TrimConsistent(offsets, originalSize, textureRect, isPatch9)
    requires ColumnSpans(capInsets, originalSize, offsets, rotated).center >= 0.0
    requires RowSpans(capInsets, originalSize, offsets, rotated).center >= 0.0
    ensures var uv := CalculateUV(atlas, capInsets, originalSize, offsets, textureRect, rotated, isPatch9, t);
      forall k :: 0 < k < |uv| ==>
        && uv[k - 1].x <= uv[k].x
        && (if rotated then uv[k - 1].y <= uv[k].y else uv[k - 1].y >= uv[k].y)
  {
    var rect := SampledRect(textureRect, isPatch9);
    var cols := ColumnSpans(capInsets, originalSize, offsets, rotated);
    var rows := RowSpans(capInsets, originalSize, offsets, rotated);
    SpansTileSampledRect(capInsets, originalSize, offsets, textureRect, rotated, isPatch9);
    AxisMonotone(rect.origin.x, cols, ExtentU(rect, rotated), atlas.width);
    AxisMonotone(rect.origin.y, rows, ExtentV(rect, rotated), atlas.height);
    UVEntries(atlas, capInsets, originalSize, offsets, textureRect, rotated, isPatch9, t);
    var uv := CalculateUV(atlas, capInsets, originalSize, offsets, textureRect, rotated, isPatch9, t);
    forall k | 0 < k < |uv|
      ensures uv[k - 1].x <= uv[k].x
      ensures if rotated then uv[k - 1].y <= uv[k].y else uv[k - 1].y >= uv[k].y
    {
      if t == Slice {
        assert k == 1 || k == 2 || k == 3;
      }
    }
  }

  /** The four boundaries one axis's spans cut, over the atlas extent, never
      decrease when the spans are not negative and tile the extent. */
  lemma AxisMonotone(origin: real, s: Spans, extent: real, d: real)
    requires d > 0.0 && s.lead >= 0.0 && s.center >= 0.0 && s.trail >= 0.0 && Total(s) == extent
    ensures origin / d <= (s.lead + origin) / d <= (s.lead + s.center + origin) / d <= (origin + extent) / d
  {
    DivideMonotone(origin, s.lead + origin, d);
    DivideMonotone(s.lead + origin, s.lead + s.center + origin, d);
    DivideMonotone(s.lead + s.center + origin, origin + extent, d);
  }

  /** Each entry of CalculateUV, written as a u boundary and a v boundary. */
  lemma UVEntries(atlas: Size, capInsets: Rect, originalSize: Size, offsets: Offsets,
                  textureRect: Rect, rotated: bool, isPatch9: bool, t: RenderingType)
    requires atlas.width > 0.0 && atlas.height > 0.0
    ensures var uv := CalculateUV(atlas, capInsets, originalSize, offsets, textureRect, rotated, isPatch9, t);
      var rect := SampledRect(textureRect, isPatch9);
      var cols := ColumnSpans(capInsets, originalSize, offsets, rotated);
      var rows := RowSpans(capInsets, originalSize, offsets, rotated);
      var us := [rect.origin.x / atlas.width, (cols.lead + rect.origin.x) / atlas.width,
                 (cols.lead + cols.center + rect.origin.x) / atlas.width,
                 (rect.origin.x + ExtentU(rect, rotated)) / atlas.width];
      var vs := [rect.origin.y / atlas.height, (rows.lead + rect.origin.y) / atlas.height,
                 (rows.lead + rows.center + rect.origin.y) / atlas.height,
                 (rect.origin.y + ExtentV(rect, rotated)) / atlas.height];
      if t == Simple then
        uv == [Vec2(us[0], if rotated then vs[0] else vs[3]), Vec2(us[3], if rotated then vs[3] else vs[0])]
      else if rotated then
        uv == [Vec2(us[0], vs[0]), Vec2(us[1], vs[1]), Vec2(us[2], vs[2]), Vec2(us[3], vs[3])]
      else
        uv == [Vec2(us[0], vs[3]), Vec2(us[1], vs[2]), Vec2(us[2], vs[1]), Vec2(us[3], vs[0])]
  {
  }

  /** The ordering in the caller's terms: for an untrimmed frame whose cap
      insets lie within the original size on both axes, the texture
      boundaries run monotonically. */
  lemma UVOrderedWithinFrame(atlas: Size, capInsets: Rect, originalSize: Size,
                             textureRect: Rect, rotated: bool, isPatch9: bool, t: RenderingType)
    requires atlas.width > 0.0 && atlas.height > 0.0
    requires TrimConsistent(NoOffsets, originalSize, textureRect, isPatch9)
    requires 0.0 <= capInsets.origin.x && 0.0 <= capInsets.size.width
    requires capInsets.origin.x + capInsets.size.width <= originalSize.width
    requires 0.0 <= capInsets.origin.y && 0.0 <= capInsets.size.height
    requires capInsets.origin.y + capInsets.size.height <= originalSize.height
    ensures var uv := CalculateUV(atlas, capInsets, originalSize, NoOffsets, textureRect, rotated, isPatch9, t);
      forall k :: 0 < k < |uv| ==>
        && uv[k - 1].x <= uv[k].x
        && (if rotated then uv[k - 1].y <= uv[k].y else uv[k - 1].y >= uv[k].y)
  {
    assert ColumnSpans(capInsets, originalSize, NoOffsets, rotated).center >= 0.0;
    assert RowSpans(capInsets, originalSize, NoOffsets, rotated).center >= 0.0;
    UVOrdered(atlas, capInsets, originalSize, NoOffsets, textureRect, rotated, isPatch9, t);
  }
}
